=== FILE: README.md ===
# storjcloud-client, modelled in Dafny

This project models the decision and bookkeeping logic of storjcloud-client,
the monitoring client that finds Storj storage nodes and keeps the Storj Cloud
dashboard informed about them. The model covers:

- **Health classification** (`NodeStatus`): the two `_determine_status` rule
  chains. The one in `src/discovery.py` gives OFFLINE, SUSPENDED, WARNING or
  ONLINE. The one in `src/sync.py` adds DISQUALIFIED.
- **Docker discovery and port scanning** (`Discovery`). The model covers:
  - the union of ancestor-matched and name-matched containers;
  - the fallback rules that resolve a container's dashboard port and storage
    port from its port mappings and `Env` entries;
  - the node record built from a status document;
  - `discover_nodes`, with the Docker client handle opened and closed;
  - `scan_ports` as an ordered filter over the probed ports.
- **Registration** (`Auth`). The model covers:
  - the payload with its defaults;
  - the POST-then-PATCH-on-409 verdict for one node;
  - the counting loop of `register_nodes`, which attempts every node;
  - `test_token`.
- **The sync daemon** (`Sync`). The model covers:
  - the list of registered nodes;
  - each node's probe target and update payload;
  - the per-node outcome and the per-batch counts;
  - the `range(0, n, batch_size)` batching;
  - the `NodeSync` object with its `running` flag and session, across `start`
    and `stop`.
- **The Python command line** (`Client`). The model covers:
  - `handle_discover`: Docker records first, then port-scan records;
  - the `--ports` / `--port-range` / `--auto` choice and parsing;
  - the dictionary deduplication by node id;
  - the empty short-circuit and the registration call;
  - the `--token`/`--url` overrides, the token gate and the routing in `main`.
- **The Go front end** (`GoDiscover`): `runDiscover` in `cmd/discover.go`,
  with its token check, server address, `--ports` parsing, default ports and
  early exits.

I/O is not modelled: HTTP replies, Docker listings, the clock and the moment
the daemon is told to stop are inputs. A status probe is a function from
(host, port) to an optional status document. Registration replies are
indexed by the node's position. A listing that raised is `None`.

Two facts about deduplication in `handle_discover` are worth stating:

- Records with an empty `node_id` are kept. They all collapse into the single
  entry keyed `""`, which holds the last of them (`Client.EmptyIdsCollapse`).
- The deduplicated records follow the order of each id's first appearance,
  which is the key order of a Python dictionary.

## Model

| member | source | states |
|---|---|---|
| NodeStatus.Label | src/sync.py:174-194 | the status label sent to the dashboard is one of ONLINE, WARNING, SUSPENDED, DISQUALIFIED, OFFLINE, and each health has its own label: the label is ONLINE iff the health is online, and likewise for the other four |
| NodeStatus.DiscoveryHealth | src/discovery.py:193-209 | never DISQUALIFIED. OFFLINE iff the document has no non-empty `lastContactSuccess`. Otherwise SUSPENDED iff a reputation block has a positive suspension score, even when the audit score is low. Otherwise WARNING iff the audit score is below 0.95, and ONLINE in every other case. Each is an iff |
| NodeStatus.SyncHealth | src/sync.py:174-194 | first match wins, each as an iff: OFFLINE without contact; then DISQUALIFIED when `disqualified` is truthy; then SUSPENDED, WARNING, ONLINE as in discovery |
| NodeStatus.SyncAgreesWithDiscovery | src/sync.py:179-181 | the two classifiers agree on every document except a contacted one whose `disqualified` is truthy, where sync says DISQUALIFIED and discovery does not |
| NodeStatus.MissingScoresMeanHealthy | src/discovery.py:198-209 | a contacted node with no reputation block, or a block with neither score (defaults 1.0 and 0.0), is ONLINE, and also ONLINE for sync when not disqualified |
| Discovery.MergeNamedInOrder | src/discovery.py:63-68 | the running list is handled in listing order: merging a listing in two parts is merging the first part, then the second, so containers are appended in listing order |
| Discovery.MergeNamedSpec | src/discovery.py:62-70 | the candidate union keeps the ancestor list as a prefix, contains every name-matched running container, adds only name-matched running containers whose id was absent, and never repeats an id |
| Discovery.DockerDiscovery.GetStorjContainers | src/discovery.py:51-74 | the loop's list is the ancestor list extended by the union, and empty when either listing raised |
| Discovery.FirstAddress | src/discovery.py:140-147 | finds the first `PREFIX=` entry whose value holds a colon; every earlier entry has no such value, so a colon-less `CONSOLE_ADDRESS` is skipped |
| Discovery.FirstExamined | src/discovery.py:149-155 | finds the first mapping the range loop does not pass over; every earlier mapping is unpublished, not TCP, or a TCP port outside [14000, 15000] |
| Discovery.RangeMappedPortFirst | src/discovery.py:149-157 | the range rule gives None when every mapping is passed over. Otherwise the first examined mapping decides: its host port when its container port is in [14000, 15000], an error when that port is not a number |
| Discovery.DashboardPort | src/discovery.py:130-157 | the ordered fallback: a published 14002/tcp mapping gives its host port through `int()`; with neither that mapping nor any `CONSOLE_ADDRESS=` entry holding a colon, the answer is the range rule's (None when no mapping qualifies) |
| Discovery.MappedDashboardPortWins | src/discovery.py:135-138 | a published 14002/tcp mapping decides the dashboard port, whatever the environment holds |
| Discovery.ConsoleAddressBeforeRange | src/discovery.py:140-147 | without a 14002/tcp mapping, the first `CONSOLE_ADDRESS=` entry with a colon decides: the port is the text after its last colon |
| Discovery.StoragePort | src/discovery.py:159-175 | the 28967/tcp host port when mapped; otherwise the port after the last colon of the first `ADDRESS=host:port` entry; otherwise 28967. The chosen text gives `Ok` of its value when it is an integer and an error (the `int()` that raises) when it is not |
| Discovery.ConsoleIsNotAddress | src/discovery.py:169-173 | a `CONSOLE_ADDRESS=` entry never counts as an `ADDRESS=` entry for the storage port |
| Discovery.RecordFromDoc | src/discovery.py:102-123 | a built record has used and available as reported (0 when missing), a total equal to their sum, and the discovery classifier's status. The node id (default ""), version (default ""), uptime (default 0), bandwidth (default `{}`) and last contact are taken from the document. The name, address, ports, source and container id are the given ones |
| Discovery.ExtractNodeInfo | src/discovery.py:76-128 | a record exists iff the dashboard port resolves to a non-zero port, the probe of 127.0.0.1 on it gives a non-empty document, and the storage port resolves. The record carries that port, the loopback address, the storage port, the node id (default ""), the status, the name with its leading `/` removed, the container id and image, `docker` as its source, and a consistent disk block. The record is the one built from that document, so every document-derived field follows it |
| Discovery.DockerNodesWellFormed | src/discovery.py:27-48 | every record of Docker discovery points at 127.0.0.1, has a non-zero dashboard port, a container id, `docker` as its source and a consistent disk block |
| Discovery.DockerDiscovery.constructor | src/discovery.py:22-25 | a new discoverer keeps its Docker host and holds no client |
| Discovery.DockerDiscovery.DiscoverNodes | src/discovery.py:27-49 | gives the records of the candidates in candidate order, none when the daemon cannot be reached, and leaves any client it held closed |
| Discovery.CheckPort | src/discovery.py:232-264 | a record exists iff the port answered 200, even with an empty document. It is named `Node-<port>`, with the scanned host and port, storage port 28967, `port_scan` as its source, no container, the discovery status and a consistent disk block. The record is the one built from the port's document, so the node id, disk figures, version, bandwidth, uptime and last contact follow it |
| Discovery.ScanPorts | src/discovery.py:220-230 | the loop keeps exactly the records of the ports that answered, in port order |
| Discovery.ScanResultSpec | src/discovery.py:220-260 | a scan yields a record for every port that answered, and nothing else. Each record belongs to a scanned port that answered, is named after it, and has storage port 28967, the scanned host and a consistent disk block. There are at most as many records as ports |
| Auth.NewAuthManager | src/auth.py:16-19 | keeps the token; the dashboard address is the given one with its trailing slashes (and only those) removed |
| Auth.PayloadDefaults | src/auth.py:62-82 | missing keys give the documented defaults: name `Node-<dashboard port>`, port 28967, status UNKNOWN, disk figures 0, bandwidth 0 |
| Auth.PayloadSpaceAddsUp | src/auth.py:70-72 | a record from either discoverer registers with allocated space equal to used plus available |
| Auth.ScannedPayload | src/auth.py:62-82 | a port-scan record registers as `Node-<port>` on port 28967 with the scanned host, its status label, `port_scan` as source and no container |
| Auth.RegisterSingle | src/auth.py:84-123 | success iff the POST answered 200/201, or it answered 409 and the PATCH answered 200/204. Unauthorized iff the POST answered 401; errored iff the POST raised |
| Auth.RequestsFor | src/auth.py:56-93 | one POST of the payload to `/storj/nodes`, followed only after a 409 by a PATCH of the same payload to `/storj/nodes/<node id>`, both with the bearer token |
| Auth.Verdicts | src/auth.py:49-52 | the i-th verdict is the single-node verdict of the i-th node's replies |
| Auth.Successes | src/auth.py:47-54 | the count never exceeds the number of verdicts |
| Auth.RegisterNodes | src/auth.py:42-54 | returns 0 and sends nothing for an empty list. Otherwise the count is the number of successful verdicts over all nodes, at most the number of nodes, and the requests sent are every node's requests in order |
| Auth.EveryNodePosted | src/auth.py:49-52 | whatever the replies, the POSTs sent are exactly one registration per node, in node order: no node is skipped after a failure |
| Auth.SuccessesAll | src/auth.py:47-54 | the count equals the number of nodes iff every registration succeeded, and is 0 iff none did |
| Auth.TestToken | src/auth.py:21-40 | the user data is returned iff the reply is 200 with a readable body; 401, other statuses and exceptions give nothing |
| Sync.RegisteredNodes | src/sync.py:77-91 | the listed nodes of a 200 answer, and empty when that answer has no `nodes` key; empty for any other status or an exception |
| Sync.ProbeTarget | src/sync.py:124-128 | probes the node's address, else 127.0.0.1. The port is the dashboard port when it is truthy, else 14002, and is never 0 |
| Sync.UpdateOf | src/sync.py:142-159 | the update carries the sync classifier's label, the reported disk figures, bandwidth used and uptime (each 0 when missing), the given time, the version, and the reputation block with its two scores; without a block it sends an empty reputation `{}` and no scores |
| Sync.SyncNodeSpec | src/sync.py:104-122 | no PATCH when the probe gave nothing or an empty document, or the node has no registry id. Otherwise a PATCH of the update to `/storj/nodes/<id>`, which syncs the node iff it is accepted (200/204) and the `nodeId` can be sliced for the log |
| Sync.NullNodeIdCountsAsFailure | src/sync.py:114-122 | a node whose `nodeId` is null never counts as synced, since slicing it raises inside the try |
| Sync.BatchesFlatten | src/sync.py:68-70 | the batches concatenate back to the node list |
| Sync.BatchSizes | src/sync.py:68-70 | every batch but the last has exactly `batch_size` nodes; the last is non-empty and no larger |
| Sync.BatchBounds | src/sync.py:68-70 | m batches cover more than (m - 1) * size and at most m * size nodes |
| Sync.BatchCount | src/sync.py:68-70 | there are ceil(n / batch_size) batches |
| Sync.Outcomes | src/sync.py:95-96 | one outcome per node of the batch, in order, each that node's sync |
| Sync.BatchOf | src/sync.py:93-102 | the success count is the number of synced outcomes, successes plus errors equal the batch size, and the warning is logged iff some node failed |
| Sync.AllOutcomesFlatten | src/sync.py:68-70 | the outcomes of the batch reports, taken together, are the outcomes of the concatenated batches |
| Sync.EveryListedNodeSynced | src/sync.py:56-75 | with a positive batch size, a cycle with no listed nodes ends at once, and otherwise every listed node is synced exactly once, in list order |
| Sync.NodeSync.constructor | src/sync.py:19-29 | a new daemon is stopped, has no session, and keeps the dashboard address without trailing slashes |
| Sync.NodeSync.Stop | src/sync.py:49-54 | clears the running flag and closes the session if one was opened |
| Sync.NodeSync.SyncBatch | src/sync.py:93-102 | the loop produces the batch report of the batch |
| Sync.NodeSync.SyncBatches | src/sync.py:67-70 | the slicing loop produces the reports of the batches `range(0, n, batch_size)` gives, in order |
| Sync.NodeSync.SyncCycle | src/sync.py:56-75 | no nodes ends the cycle. A zero batch size makes `range` raise and the cycle fail. A negative size processes no batch. Otherwise every batch is reported |
| Sync.NodeSync.Start | src/sync.py:31-47 | runs one cycle per round until stopped, and each report is that round's cycle. On the way out `stop` runs: the flag is cleared and the session closed |
| Client.ParseEach | storjcloud-client.py:132 | every piece is stripped and parsed in order, and the list has one port per piece; nothing if any piece is not an integer |
| Client.Range | storjcloud-client.py:135 | `a..b` inclusive, empty when b < a |
| Client.ParsePortRange | storjcloud-client.py:134-135 | parses iff the text splits on `-` into exactly two integers, giving the inclusive range between them |
| Client.PortsToScan | storjcloud-client.py:131-137 | `--ports` wins, then `--port-range`, then the configured common ports |
| Client.ParseEachShown | storjcloud-client.py:132 | the numerals of a list of ports parse back to that list |
| Client.PortListRoundTrip | storjcloud-client.py:132 | a non-empty port list written with commas parses back to itself |
| Client.PortRangeRoundTrip | storjcloud-client.py:134-135 | `a-b` written out parses to the range a..b |
| Client.DictSnoc | storjcloud-client.py:149-150 | writing one more record keeps the dictionary's invariant: distinct keys, each id a key, each key mapped to its last record, keys in first-appearance order |
| Client.Values | storjcloud-client.py:152 | the values are listed in key order |
| Client.DictValuesDedup | storjcloud-client.py:148-152 | the values of the finished dictionary are the deduplication of the records |
| Client.Deduplicate | storjcloud-client.py:147-152 | one record per distinct node id. Each is the last record with that id, and they follow the order of each id's first appearance |
| Client.ScanRecordWins | storjcloud-client.py:118-152 | when a port-scan record shares its id with a Docker record, the scan record wins |
| Client.EmptyIdsCollapse | storjcloud-client.py:148-150 | records with an empty id are kept, as one entry: the last such record |
| Client.Discovered | storjcloud-client.py:116-141 | the command fails iff a scan was asked for and its port text does not parse. Otherwise the Docker records, when asked for, come first, followed by the scan of the chosen ports on `--server` (default 127.0.0.1) when a scan was asked for, and nothing else |
| Client.Collect | storjcloud-client.py:116-141 | the discovery half builds exactly that concatenation |
| Client.HandleDiscover | storjcloud-client.py:112-167 | fails iff the port text does not parse, and registers nothing iff nothing was found. Otherwise it registers the deduplicated, non-empty record list, counting the successes and sending every node's requests |
| Client.RegisterDiscovered | storjcloud-client.py:147-167 | deduplicates the found records and registers them with the configured token and endpoint |
| Client.ApiConfig.constructor | storjcloud-client.py:37 | the configuration holds the loaded token and endpoint |
| Client.ApiConfig.Override | storjcloud-client.py:39-43 | a non-empty `--token` / `--url` replaces the configured value, and an absent or empty one leaves it |
| Client.TokenGate | storjcloud-client.py:45-48 | refuses iff the token is empty and the command is not `install-service` or `help`, pointing at `<endpoint>/settings/api-tokens` |
| Client.Startup | storjcloud-client.py:39-48 | overrides first, then the token check on the overridden values |
| Client.TokenArgumentPasses | storjcloud-client.py:40-48 | a non-empty `--token` always passes the gate |
| Client.Route | storjcloud-client.py:50-61 | discover, sync, install-service and auth each go to their own handler, each as an iff; the help text is printed iff the command is none of them |
| GoDiscover.FirstBad | cmd/discover.go:63-67 | the position of the first piece that is not an int after trimming: every earlier piece is one |
| GoDiscover.ParsePieces | cmd/discover.go:61-69 | parses iff every trimmed piece is an int, giving one port per piece in order. Otherwise the error names the first bad piece as written |
| GoDiscover.ParsePorts | cmd/discover.go:59-73 | an empty `--ports` gives 14000..14005; otherwise the pieces as parsed |
| GoDiscover.ParseEachPiece | cmd/discover.go:62-69 | the loop returns at the first bad piece with `invalid port: <piece>`, else the full list |
| GoDiscover.AgreesWithPython | cmd/discover.go:61-69 | within the 64-bit range, the modelled Go and Python parsers accept the same `--ports` texts, with the same result. The real parsers differ beyond the model; see Left out |
| GoDiscover.PortListRoundTrip | cmd/discover.go:61-69 | a non-empty list of 64-bit ports written with commas parses back to itself |
| GoDiscover.RunDiscover | cmd/discover.go:40-112 | fails on an empty token before anything else, then on a failed address lookup, then on a bad port text, then on a failed scan. An empty scan returns without registering. Otherwise it reports the registration result or its error |

## Left out

- HTTP, Docker and `asyncio` are not modelled. Each call's outcome is an input: sessions, headers, timeouts, `response.json()`, `containers.list`, `reload` and `ping`. `asyncio.gather` keeps input order and its tasks share no state, so the loops are sequential.
- Logging, the JSON printing of `handle_discover` and the GB display are output only and are left out.
- The interval sleep and `datetime.utcnow()` are left out. The clock value is a parameter, and the stop request is modelled as arriving during the sleep after a given cycle.
- `KeyboardInterrupt` handling and process exit are not modelled.
- `src/config.py`, `src/pm2.py`, `src/logger.py`, `cmd/root.go`, `cmd/sync.go` and `main.go` are configuration, service and process plumbing, and are not part of this model. `Settings` carries the configuration values `handle_discover` reads.
- `getLocalIP` (a UDP dial) is an input of `GoDiscover.RunDiscover`.
- The Go `internal/...` discovery service is not part of this model. Its scan and registration are inputs.
- `retry_failed` is stored but never used, and the `satellites` list of the sync update is not part of this model.
- The `handle_sync`, `handle_auth` and `handle_install_service` handlers are not modelled beyond routing.
- Reputation scores are `real`. The code only compares them with 0 and 0.95.
- A JSON `null` in a status document, a listed node or a record is treated as a missing key. The real program behaves as follows:
  - `diskSpace` or `reputation`: the next `.get` in the record or the update raises.
  - `auditScore` or `suspensionScore` inside a reputation block: the comparison with 0.95 or 0 raises a `TypeError` (src/discovery.py:204-206 and 277-280, src/sync.py:189-191). The Docker container or the scanned port then yields no record, and the sync of that node fails without a PATCH. The model reads the defaults 1.0 and 0.0 and classifies the node.
  - Any key of the status document: a document whose keys are all `null` is still truthy, so Docker discovery and sync use it (an OFFLINE record, a PATCH). The model gets this right only when such keys are counted in `otherKeys`, as its comment says.
  - `version` or `uptime`: the record keeps `None` (src/discovery.py:108, 117, 248, 257), and the sync update sends `None` as its uptime (src/sync.py:153). The model gives `""` and `0`.
  - Sync's `address`: the probe URL becomes `http://None:<port>/api/sno`, so the probe fails. The model probes 127.0.0.1 instead.
  - Sync's registry `id`: the update is PATCHed to `/storj/nodes/None` (src/sync.py:114, 144). The model sends no PATCH for it.
  - Status `nodeID`: the record's `node_id` is `None`. Without `--json`, the listing at storjcloud-client.py:159-162 then raises before registration starts; with `--json` the records are printed and registration is reached. Inside `_register_single_node`, `None[:8]` raises and raises again in the handler (src/auth.py:102-104).
  - A record's `bandwidth`: `.get` raises at src/auth.py:73, outside the `try`, and aborts the whole registration.
- NodeStatus.DiscoveryHealth: classifies a document whose reputation scores are `null` by the defaults, where the source raises; see the null line above.
- NodeStatus.SyncHealth: the same simplification for `null` scores.
- Sync.SyncNodeSpec: a listed node whose registry `id` is `null` gets no PATCH in the model, where the source PATCHes `/storj/nodes/None`.
- Auth.EveryNodePosted: holds only under the null simplification above. A null `bandwidth` or node id in the real program ends `register_nodes` before the remaining nodes are posted.
- Client.HandleDiscover: relies on the same simplification. A null node id makes the listing or the registration raise, and the command fails.
- The record's `nodeId` is a string. The sync side's `nodeId` is any JSON scalar, which is where slicing it can raise.
- Text.PyInt: Python's `int()` also accepts underscores between digits and non-ASCII digits and whitespace. The model accepts only ASCII whitespace, an optional sign and ASCII decimal digits.
- Text.GoAtoi: models `strconv.Atoi` for ASCII digits with an optional sign and the 64-bit range only. Its input is trimmed by `Text.Strip`, so the Unicode spaces `strings.TrimSpace` removes are not removed here.
- Text.Strip: removes only the six ASCII whitespace characters. Python's `str.strip()` also removes `\x1c`-`\x1f`, and both it and `strings.TrimSpace` remove Unicode spaces such as U+0085 and U+00A0.
- GoDiscover.AgreesWithPython: holds for the modelled parsers. The real ones differ, for example `int("1_000")` succeeds in Python and `Atoi` rejects it.
- Text.Strip: the contract states only that the result has no whitespace at either end, not that only whitespace was removed. The function's body removes exactly the leading and trailing whitespace.
- GoDiscover.RunDiscover: does not model the panic of `node.NodeID[:8]` in the result listing for a node id shorter than 8 bytes (cmd/discover.go:97-100).
- Discovery.DockerDiscovery.DiscoverNodes: an exception other than a Docker connection error escaping `_get_storj_containers` or `_extract_node_info` is not modelled. Both catch every exception themselves.

=== FILE: auth.dfy ===
/** `src/auth.py`: the registration client of the dashboard API. It turns a
    node record into a registration payload, registers each node with a
    POST (falling back to a PATCH of the same payload when the node already
    exists), counts the successes, and checks an API token. The replies of
    the dashboard are inputs. */
module Auth {
  import opened Wrappers
  import opened Text
  import opened Http
  import opened NodeStatus
  import opened Discovery

  /** The dashboard client: the API token and the dashboard address with
      its trailing slashes removed. */
  datatype AuthManager = AuthManager(apiToken: string, dashboardUrl: string)

  /** `AuthManager(api_token, dashboard_url)`. */
  function NewAuthManager(apiToken: string, dashboardUrl: string): (m: AuthManager)
    ensures m.apiToken == apiToken
    ensures m.dashboardUrl == [] || m.dashboardUrl[|m.dashboardUrl| - 1] != '/'
    ensures |m.dashboardUrl| <= |dashboardUrl| && m.dashboardUrl == dashboardUrl[..|m.dashboardUrl|]
    ensures forall k :: |m.dashboardUrl| <= k < |dashboardUrl| ==> dashboardUrl[k] == '/'
  {
    var url := RStrip(dashboardUrl, '/');
    AuthManager(apiToken, url)
  }

  // ---------------------------------------------------------------------
  // Payload (`node_data` of `_register_single_node`)
  // ---------------------------------------------------------------------

  /** The `config` block of the payload. */
  datatype NodeConfig = NodeConfig(
    detectedFrom: Option<string>,
    containerId: Option<string>,
    containerName: Option<string>,
    image: Option<string>)

  /** The JSON body of a registration or update request. */
  datatype Payload = Payload(
    nodeId: string,
    name: string,
    address: string,
    port: int,
    dashboardPort: int,
    version: Option<string>,
    status: string,
    allocatedSpace: int,
    usedSpace: int,
    availableSpace: int,
    bandwidthUsed: int,
    uptime: int,
    lastSeen: Option<string>,
    config: NodeConfig)

  const DefaultStatus: string := "UNKNOWN"

  /** `node.get('disk_space', {}).get(key, 0)` for the three disk keys. */
  function DiskField(disk: Option<DiskRecord>, pick: DiskRecord -> Option<int>): int {
    if disk.Some? then pick(disk.value).GetOr(0) else 0
  }

  /** The payload of a node record: the record's values where present, the
      documented defaults where a key is missing. */
  function PayloadOf(n: NodeRecord): Payload {
    Payload(
      nodeId := n.nodeId,
      name := n.name.GetOr("Node-" + ShowInt(n.dashboardPort)),
      address := n.address,
      port := n.storagePort.GetOr(DefaultStoragePort),
      dashboardPort := n.dashboardPort,
      version := n.version,
      status := if n.status.Some? then Label(n.status.value) else DefaultStatus,
      allocatedSpace := DiskField(n.disk, (d: DiskRecord) => d.total),
      usedSpace := DiskField(n.disk, (d: DiskRecord) => d.used),
      availableSpace := DiskField(n.disk, (d: DiskRecord) => d.available),
      bandwidthUsed := if n.bandwidth.Some? then n.bandwidth.value.used.GetOr(0) else 0,
      uptime := n.uptime.GetOr(0),
      lastSeen := n.lastContact,
      config := NodeConfig(n.detectedFrom, n.containerId, n.containerName, n.image))
  }

  /** A key missing from the record takes its default in the payload: the
      name is derived from the dashboard port, the port is 28967, the status
      is UNKNOWN and the disk figures are 0. */
  lemma PayloadDefaults(n: NodeRecord)
    ensures n.name.None? ==> PayloadOf(n).name == "Node-" + ShowInt(n.dashboardPort)
    ensures n.storagePort.None? ==> PayloadOf(n).port == 28967
    ensures n.status.None? ==> PayloadOf(n).status == "UNKNOWN"
    ensures n.disk.None? ==>
      PayloadOf(n).allocatedSpace == PayloadOf(n).usedSpace == PayloadOf(n).availableSpace == 0
    ensures n.bandwidth.None? ==> PayloadOf(n).bandwidthUsed == 0
  {
  }

  /** A record built by either discoverer registers with an allocated space
      equal to its used plus available space. */
  lemma PayloadSpaceAddsUp(n: NodeRecord)
    requires DiskConsistent(n)
    ensures PayloadOf(n).allocatedSpace == PayloadOf(n).usedSpace + PayloadOf(n).availableSpace
  {
  }

  /** A port-scan record registers under the name of its dashboard port, on
      the default storage port, with its status label. */
  lemma ScannedPayload(host: string, port: int, probe: Probe)
    requires CheckPort(host, port, probe).Some?
    ensures var p := PayloadOf(CheckPort(host, port, probe).value);
            && p.name == "Node-" + ShowInt(port) && p.port == DefaultStoragePort
            && p.dashboardPort == port && p.address == host
            && p.status == Label(DiscoveryHealth(probe(host, port).value))
            && p.config.detectedFrom == Some("port_scan") && p.config.containerId.None?
  {
  }

  // ---------------------------------------------------------------------
  // Registering one node
  // ---------------------------------------------------------------------

  /** A request the client sends: verb, URL, bearer header and JSON body. */
  datatype Request =
    | Post(url: string, authorization: string, body: Payload)
    | Patch(url: string, authorization: string, body: Payload)

  function Bearer(m: AuthManager): string {
    "Bearer " + m.apiToken
  }

  function NodesUrl(m: AuthManager): string {
    m.dashboardUrl + "/storj/nodes"
  }

  function NodeUrl(m: AuthManager, nodeId: string): string {
    NodesUrl(m) + "/" + nodeId
  }

  /** The dashboard's replies to the requests for one node: the POST reply,
      and the PATCH reply used only after a 409. */
  datatype Exchange = Exchange(post: Reply, patch: Reply)

  /** How one registration ended. */
  datatype Verdict =
    | Created         // POST answered 200 or 201
    | Updated         // POST answered 409, PATCH answered 200 or 204
    | UpdateFailed    // POST answered 409, PATCH failed or raised
    | Unauthorized    // POST answered 401
    | Rejected(code: int)  // any other POST status
    | Errored         // the POST raised

  predicate Succeeded(v: Verdict) {
    v.Created? || v.Updated?
  }

  /** `_register_single_node` and `_update_existing_node`: the verdict
      for one node. */
  function RegisterSingle(e: Exchange): (v: Verdict)
    ensures Succeeded(v) <==> PostAccepted(e.post) || (e.post == Status(409) && PatchAccepted(e.patch))
    ensures v == Unauthorized <==> e.post == Status(401)
    ensures v == Errored <==> e.post == Raised
  {
    match e.post
    case Raised => Errored
    case Status(code) =>
      if code == 200 || code == 201 then Created
      else if code == 409 then (if PatchAccepted(e.patch) then Updated else UpdateFailed)
      else if code == 401 then Unauthorized
      else Rejected(code)
  }

  /** The requests sent for one node: a POST of its payload to the node
      collection, followed, only when that POST answered 409, by a PATCH of
      the same payload to the node's own URL. */
  function RequestsFor(m: AuthManager, n: NodeRecord, e: Exchange): (rs: seq<Request>)
    ensures |rs| >= 1 && rs[0] == Post(NodesUrl(m), Bearer(m), PayloadOf(n))
    ensures |rs| == 2 <==> e.post == Status(409)
    ensures |rs| <= 2
    ensures |rs| == 2 ==> rs[1] == Patch(NodeUrl(m, n.nodeId), Bearer(m), rs[0].body)
  {
    var body := PayloadOf(n);
    var post := Post(NodesUrl(m), Bearer(m), body);
    if e.post == Status(409) then [post, Patch(NodeUrl(m, n.nodeId), Bearer(m), body)] else [post]
  }

  // ---------------------------------------------------------------------
  // Registering a list of nodes
  // ---------------------------------------------------------------------

  /** The number of successful verdicts. */
  function Successes(vs: seq<Verdict>): (n: nat)
    ensures n <= |vs|
  {
    if vs == [] then 0
    else Successes(vs[..|vs| - 1]) + (if Succeeded(vs[|vs| - 1]) then 1 else 0)
  }

  /** The verdicts of the first `k` nodes, in order. */
  function Verdicts(exchanges: nat -> Exchange, k: nat): (vs: seq<Verdict>)
    ensures |vs| == k
    ensures forall i :: 0 <= i < k ==> vs[i] == RegisterSingle(exchanges(i))
  {
    if k == 0 then [] else Verdicts(exchanges, k - 1) + [RegisterSingle(exchanges(k - 1))]
  }

  /** Every request sent for the nodes, node after node. */
  function SentFor(m: AuthManager, nodes: seq<NodeRecord>, exchanges: nat -> Exchange): seq<Request> {
    if nodes == [] then []
    else SentFor(m, nodes[..|nodes| - 1], exchanges)
         + RequestsFor(m, nodes[|nodes| - 1], exchanges(|nodes| - 1))
  }

  lemma SuccessesStep(exchanges: nat -> Exchange, i: nat)
    ensures Successes(Verdicts(exchanges, i + 1))
            == Successes(Verdicts(exchanges, i)) + (if Succeeded(RegisterSingle(exchanges(i))) then 1 else 0)
  {
    var vs := Verdicts(exchanges, i + 1);
    assert vs[..i] == Verdicts(exchanges, i);
  }

  lemma SentForStep(m: AuthManager, nodes: seq<NodeRecord>, exchanges: nat -> Exchange, i: nat)
    requires i < |nodes|
    ensures SentFor(m, nodes[..i + 1], exchanges) == SentFor(m, nodes[..i], exchanges) + RequestsFor(m, nodes[i], exchanges(i))
  {
    assert nodes[..i + 1][..i] == nodes[..i];
  }

  /** `register_nodes`: attempts every node in order, whatever the earlier
      attempts gave, and counts the successful ones. `exchanges(i)` is the
      dashboard's answer for the i-th node. */
  method RegisterNodes(m: AuthManager, nodes: seq<NodeRecord>, exchanges: nat -> Exchange)
    returns (count: nat, sent: seq<Request>)
    ensures count == Successes(Verdicts(exchanges, |nodes|))
    ensures sent == SentFor(m, nodes, exchanges)
    ensures count <= |nodes|
    ensures nodes == [] ==> count == 0 && sent == []
  {
    if |nodes| == 0 {
      return 0, [];
    }
    count := 0;
    sent := [];
    for i := 0 to |nodes|
      invariant count == Successes(Verdicts(exchanges, i))
      invariant sent == SentFor(m, nodes[..i], exchanges)
    {
      var verdict := RegisterSingle(exchanges(i));
      var requests := RequestsFor(m, nodes[i], exchanges(i));
      SentForStep(m, nodes, exchanges, i);
      SuccessesStep(exchanges, i);
      sent := sent + requests;
      if Succeeded(verdict) {
        count := count + 1;
      }
    }
    assert nodes[..|nodes|] == nodes;
  }

  /** The POST requests among the sent ones. */
  function Posts(rs: seq<Request>): seq<Request> {
    if rs == [] then []
    else Posts(rs[..|rs| - 1]) + (if rs[|rs| - 1].Post? then [rs[|rs| - 1]] else [])
  }

  lemma {:induction false} PostsAppend(xs: seq<Request>, ys: seq<Request>)
    ensures Posts(xs + ys) == Posts(xs) + Posts(ys)
    decreases |ys|
  {
    if ys == [] {
      assert xs + ys == xs;
    } else {
      var ys' := ys[..|ys| - 1];
      assert (xs + ys)[..|xs + ys| - 1] == xs + ys';
      PostsAppend(xs, ys');
    }
  }

  /** The registration request of one node. */
  function PostOf(m: AuthManager, n: NodeRecord): Request {
    Post(NodesUrl(m), Bearer(m), PayloadOf(n))
  }

  /** One registration request per node, in node order. */
  function PostsFor(m: AuthManager, nodes: seq<NodeRecord>): (rs: seq<Request>)
    ensures |rs| == |nodes|
    ensures forall i :: 0 <= i < |nodes| ==> rs[i] == PostOf(m, nodes[i])
  {
    Map(n => PostOf(m, n), nodes)
  }

  /** Every node is attempted exactly once and in order: the POSTs sent are
      the registration requests of the nodes, one per node, whatever the
      replies. */
  lemma {:induction false} EveryNodePosted(m: AuthManager, nodes: seq<NodeRecord>, exchanges: nat -> Exchange)
    ensures Posts(SentFor(m, nodes, exchanges)) == PostsFor(m, nodes)
    decreases |nodes|
  {
    if nodes != [] {
      var init := nodes[..|nodes| - 1];
      EveryNodePosted(m, init, exchanges);
      PostsAppend(SentFor(m, init, exchanges), RequestsFor(m, nodes[|nodes| - 1], exchanges(|nodes| - 1)));
      PostsOfRequests(m, nodes[|nodes| - 1], exchanges(|nodes| - 1));
    }
  }

  /** One node contributes one POST: the one of its payload. */
  lemma PostsOfRequests(m: AuthManager, n: NodeRecord, e: Exchange)
    ensures Posts(RequestsFor(m, n, e)) == [PostOf(m, n)]
  {
    var rs := RequestsFor(m, n, e);
    assert Posts(rs[..1]) == [rs[0]] by {
      assert rs[..1][..0] == [];
    }
    if |rs| == 2 {
      assert rs[..|rs| - 1] == rs[..1];
    }
  }

  /** The count is the number of nodes whose registration succeeded: none
      for no node, all of them exactly when every verdict is a success. */
  lemma {:induction false} SuccessesAll(vs: seq<Verdict>)
    ensures Successes(vs) == |vs| <==> forall i :: 0 <= i < |vs| ==> Succeeded(vs[i])
    ensures Successes(vs) == 0 <==> forall i :: 0 <= i < |vs| ==> !Succeeded(vs[i])
    decreases |vs|
  {
    if vs != [] {
      var init := vs[..|vs| - 1];
      SuccessesAll(init);
      assert forall i :: 0 <= i < |init| ==> init[i] == vs[i];
    }
  }

  // ---------------------------------------------------------------------
  // Token check
  // ---------------------------------------------------------------------

  /** The user document `GET /auth/me` answers with. */
  datatype UserInfo = UserInfo(email: Option<string>)

  /** `test_token`: the user document for a 200 answer whose body is a JSON
      object, nothing for 401, any other status, an exception or a body that
      cannot be read. */
  function TestToken(reply: Reply, body: Option<UserInfo>): (r: Option<UserInfo>)
    ensures r.Some? <==> reply == Status(200) && body.Some?
    ensures r.Some? ==> r == body
  {
    if reply == Status(200) then body else None
  }
}

=== FILE: client.dfy ===
/** `storjcloud-client.py`: the command-line front end. `handle_discover`
    concatenates the Docker records and the port-scan records, keeps one
    record per node id, and registers them; `main` applies the `--token`
    and `--url` overrides and refuses to run without a token. */
module Client {
  import opened Wrappers
  import opened Text
  import opened Http
  import opened NodeStatus
  import opened Discovery
  import opened Auth

  /** A command-line option is given when it is present and not empty. */
  predicate Given(s: Option<string>) {
    s.Some? && s.value != ""
  }

  // ---------------------------------------------------------------------
  // Ports to scan
  // ---------------------------------------------------------------------

  /** The options of the `discover` subcommand. */
  datatype DiscoverArgs = DiscoverArgs(
    fromDocker: bool,
    dockerHost: Option<string>,
    server: Option<string>,
    ports: Option<string>,
    portRange: Option<string>,
    auto: bool)

  /** The configuration values `handle_discover` reads. */
  datatype Settings = Settings(
    token: string,
    endpoint: string,
    dockerHost: string,
    commonPorts: seq<int>)

  /** `args.ports or args.port_range or args.auto`. */
  predicate ScanRequested(args: DiscoverArgs) {
    Given(args.ports) || Given(args.portRange) || args.auto
  }

  /** `[int(p.strip()) for p in pieces]`: every piece parsed in order, or
      nothing when one of them is not an integer. */
  function ParseEach(pieces: seq<string>): (r: Option<seq<int>>)
    ensures r.Some? <==> forall i :: 0 <= i < |pieces| ==> PyInt(pieces[i]).Some?
    ensures r.Some? ==> |r.value| == |pieces|
                        && forall i :: 0 <= i < |pieces| ==> r.value[i] == PyInt(pieces[i]).value
  {
    if forall i :: 0 <= i < |pieces| ==> PyInt(pieces[i]).Some? then
      Some(seq(|pieces|, i requires 0 <= i < |pieces| => PyInt(pieces[i]).value))
    else None
  }

  /** `--ports`: comma-separated integers, surrounding blanks allowed. */
  function ParsePortList(text: string): Option<seq<int>> {
    ParseEach(Split(text, ','))
  }

  /** `list(range(a, b + 1))`. */
  function Range(a: int, b: int): (r: seq<int>)
    ensures |r| == (if a <= b then b - a + 1 else 0)
    ensures forall i :: 0 <= i < |r| ==> r[i] == a + i
  {
    seq(if a <= b then b - a + 1 else 0, i => a + i)
  }

  /** `--port-range`: exactly two integers around one `-`, giving the
      inclusive range between them. */
  function ParsePortRange(text: string): (r: Option<seq<int>>)
    ensures r.Some? <==> |Split(text, '-')| == 2
                         && PyInt(Split(text, '-')[0]).Some? && PyInt(Split(text, '-')[1]).Some?
    ensures r.Some? ==> r.value == Range(PyInt(Split(text, '-')[0]).value, PyInt(Split(text, '-')[1]).value)
  {
    var pieces := Split(text, '-');
    if |pieces| != 2 then None
    else
      match PyInt(pieces[0])
      case None => None
      case Some(a) =>
        match PyInt(pieces[1])
        case None => None
        case Some(b) => Some(Range(a, b))
  }

  /** The ports of a scan: `--ports` first, then `--port-range`, then the
      configured common ports; nothing when the chosen text does not parse
      (the command then fails). */
  function PortsToScan(args: DiscoverArgs, cfg: Settings): (r: Option<seq<int>>)
    requires ScanRequested(args)
    ensures Given(args.ports) ==> r == ParsePortList(args.ports.value)
    ensures !Given(args.ports) && Given(args.portRange) ==> r == ParsePortRange(args.portRange.value)
    ensures !Given(args.ports) && !Given(args.portRange) ==> r == Some(cfg.commonPorts)
  {
    if Given(args.ports) then ParsePortList(args.ports.value)
    else if Given(args.portRange) then ParsePortRange(args.portRange.value)
    else Some(cfg.commonPorts)
  }

  /** The decimal texts of a list of ports. */
  function Shown(ports: seq<int>): (texts: seq<string>)
    ensures |texts| == |ports|
    ensures forall i :: 0 <= i < |ports| ==> texts[i] == ShowInt(ports[i])
  {
    seq(|ports|, i requires 0 <= i < |ports| => ShowInt(ports[i]))
  }

  lemma NoCommaInShown(n: int)
    ensures ',' !in ShowInt(n)
  {
    if n < 0 {
      assert ShowInt(n) == "-" + ShowNat(-n);
      assert IsNumeral(ShowNat(-n));
    } else {
      assert IsNumeral(ShowNat(n));
    }
  }

  lemma {:induction false} ParseEachShown(ports: seq<int>)
    ensures ParseEach(Shown(ports)) == Some(ports)
  {
    var texts := Shown(ports);
    forall i | 0 <= i < |texts|
      ensures PyInt(texts[i]) == Some(ports[i])
    {
      ParseShowInt(ports[i]);
    }
    var r := ParseEach(texts);
    assert r.Some?;
    assert r.value == ports;
  }

  /** A list of ports written out with commas parses back to the same list,
      in the same order. */
  lemma PortListRoundTrip(ports: seq<int>)
    requires |ports| >= 1
    ensures ParsePortList(Join(Shown(ports), ',')) == Some(ports)
  {
    var texts := Shown(ports);
    forall i | 0 <= i < |texts|
      ensures ',' !in texts[i]
    {
      NoCommaInShown(ports[i]);
    }
    SplitJoin(texts, ',');
    ParseEachShown(ports);
  }

  /** `"a-b"` for non-negative a and b parses to every port from a to b. */
  lemma PortRangeRoundTrip(a: nat, b: nat)
    ensures ParsePortRange(ShowInt(a) + "-" + ShowInt(b)) == Some(Range(a, b))
  {
    var sa := ShowInt(a);
    var sb := ShowInt(b);
    assert IsNumeral(sa) && IsNumeral(sb);
    assert '-' !in sa && '-' !in sb;
    assert Join([sa, sb], '-') == sa + "-" + sb;
    SplitJoin([sa, sb], '-');
    ParseShowInt(a);
    ParseShowInt(b);
  }

  // ---------------------------------------------------------------------
  // Keeping one record per node id
  // ---------------------------------------------------------------------

  predicate HasNodeId(nodes: seq<NodeRecord>, id: string) {
    exists i | 0 <= i < |nodes| :: nodes[i].nodeId == id
  }

  /** The position of the first record with the id. */
  ghost function FirstWith(nodes: seq<NodeRecord>, id: string): (i: nat)
    requires HasNodeId(nodes, id)
    ensures i < |nodes| && nodes[i].nodeId == id
    ensures forall j :: 0 <= j < i ==> nodes[j].nodeId != id
  {
    if nodes[0].nodeId == id then 0
    else
      assert forall i :: 1 <= i < |nodes| ==> nodes[i] == nodes[1..][i - 1];
      1 + FirstWith(nodes[1..], id)
  }

  /** The position of the last record with the id. */
  ghost function LastWith(nodes: seq<NodeRecord>, id: string): (i: nat)
    requires HasNodeId(nodes, id)
    ensures i < |nodes| && nodes[i].nodeId == id
    ensures forall j :: i < j < |nodes| ==> nodes[j].nodeId != id
  {
    var n := |nodes| - 1;
    if nodes[n].nodeId == id then n
    else
      assert forall i :: 0 <= i < n ==> nodes[i] == nodes[..n][i];
      LastWith(nodes[..n], id)
  }

  /** `list({n['node_id']: n for n in nodes}.values())`: one record per
      distinct id, no id lost, each the last record with its id, in the
      order in which the ids first appear. */
  ghost predicate IsDedup(nodes: seq<NodeRecord>, unique: seq<NodeRecord>) {
    && (forall a, b :: 0 <= a < b < |unique| ==> unique[a].nodeId != unique[b].nodeId)
    && (forall i :: 0 <= i < |nodes| ==> HasNodeId(unique, nodes[i].nodeId))
    && (forall k :: 0 <= k < |unique| ==>
          HasNodeId(nodes, unique[k].nodeId) && unique[k] == nodes[LastWith(nodes, unique[k].nodeId)])
    && (forall a, b :: 0 <= a < b < |unique| ==>
          HasNodeId(nodes, unique[a].nodeId) && HasNodeId(nodes, unique[b].nodeId) &&
          FirstWith(nodes, unique[a].nodeId) < FirstWith(nodes, unique[b].nodeId))
  }

  lemma HasNodeIdSnoc(p: seq<NodeRecord>, x: NodeRecord, id: string)
    ensures HasNodeId(p + [x], id) <==> HasNodeId(p, id) || x.nodeId == id
  {
    var q := p + [x];
    assert forall j :: 0 <= j < |p| ==> q[j] == p[j];
    assert q[|p|] == x;
  }

  /** Appending a record moves the first position of no id already present. */
  lemma FirstWithSnoc(p: seq<NodeRecord>, x: NodeRecord, id: string)
    requires HasNodeId(p + [x], id)
    ensures HasNodeId(p, id) ==> FirstWith(p + [x], id) == FirstWith(p, id)
    ensures !HasNodeId(p, id) ==> FirstWith(p + [x], id) == |p|
  {
    var q := p + [x];
    var f := FirstWith(q, id);
    if HasNodeId(p, id) {
      var g := FirstWith(p, id);
      assert q[g] == p[g];
      assert f <= g;
      assert q[f] == p[f];
    } else {
      HasNodeIdSnoc(p, x, id);
      assert forall j :: 0 <= j < |p| ==> q[j] == p[j];
    }
  }

  /** Appending a record with the id makes it the last one; appending one
      with another id leaves the last position alone. */
  lemma LastWithSnoc(p: seq<NodeRecord>, x: NodeRecord, id: string)
    requires HasNodeId(p + [x], id)
    ensures x.nodeId == id ==> LastWith(p + [x], id) == |p|
    ensures x.nodeId != id ==> HasNodeId(p, id) && LastWith(p + [x], id) == LastWith(p, id)
  {
    var q := p + [x];
    assert q[..|p|] == p;
  }

  predicate KeysDistinct(keys: seq<string>) {
    forall a, b :: 0 <= a < b < |keys| ==> keys[a] != keys[b]
  }

  ghost predicate KeysOf(keys: seq<string>, m: map<string, NodeRecord>) {
    forall id :: id in m <==> id in keys
  }

  predicate Covers(p: seq<NodeRecord>, m: map<string, NodeRecord>) {
    forall j :: 0 <= j < |p| ==> p[j].nodeId in m
  }

  ghost predicate MapsToLast(p: seq<NodeRecord>, m: map<string, NodeRecord>) {
    forall id :: id in m ==> HasNodeId(p, id) && m[id] == p[LastWith(p, id)]
  }

  ghost predicate InFirstOrder(p: seq<NodeRecord>, keys: seq<string>) {
    forall a, b :: 0 <= a < b < |keys| ==>
      HasNodeId(p, keys[a]) && HasNodeId(p, keys[b]) && FirstWith(p, keys[a]) < FirstWith(p, keys[b])
  }

  /** The dictionary `unique_nodes` after the records `p` were written into
      it, as its key order and its map: the keys are distinct and are the
      map's keys, every id of `p` is a key, each key maps to the last record
      of `p` with that id, and the keys are in first-appearance order. */
  ghost predicate DictOf(p: seq<NodeRecord>, keys: seq<string>, m: map<string, NodeRecord>) {
    KeysDistinct(keys) && KeysOf(keys, m) && Covers(p, m) && MapsToLast(p, m) && InFirstOrder(p, keys)
  }

  /** The key order after writing `x`: unchanged for a known id, extended
      by the id otherwise. */
  function KeysAfter(keys: seq<string>, m: map<string, NodeRecord>, x: NodeRecord): seq<string> {
    if x.nodeId in m then keys else keys + [x.nodeId]
  }

  /** Writing `x` maps its id to `x`, which is now the last record with
      that id, and leaves every other key's last record in place. */
  lemma WriteKeepsLast(p: seq<NodeRecord>, m: map<string, NodeRecord>, x: NodeRecord)
    requires MapsToLast(p, m)
    ensures MapsToLast(p + [x], m[x.nodeId := x])
  {
    var q, m' := p + [x], m[x.nodeId := x];
    forall id | id in m'
      ensures HasNodeId(q, id) && m'[id] == q[LastWith(q, id)]
    {
      HasNodeIdSnoc(p, x, id);
      LastWithSnoc(p, x, id);
      if id != x.nodeId {
        assert q[LastWith(p, id)] == p[LastWith(p, id)];
      }
    }
  }

  /** Writing `x` keeps the keys distinct and the map's domain. */
  lemma WriteKeepsKeys(keys: seq<string>, m: map<string, NodeRecord>, x: NodeRecord)
    requires KeysDistinct(keys) && KeysOf(keys, m)
    ensures KeysDistinct(KeysAfter(keys, m, x)) && KeysOf(KeysAfter(keys, m, x), m[x.nodeId := x])
  {
  }

  /** Every id written so far is a key. */
  lemma WriteCovers(p: seq<NodeRecord>, m: map<string, NodeRecord>, x: NodeRecord)
    requires Covers(p, m)
    ensures Covers(p + [x], m[x.nodeId := x])
  {
    var q, m' := p + [x], m[x.nodeId := x];
    forall j | 0 <= j < |q|
      ensures q[j].nodeId in m'
    {
      if j < |p| {
        assert q[j] == p[j];
      }
    }
  }

  /** Writing `x` keeps the key order in first-appearance order: an
      existing key keeps its place, a new one is the latest to appear. */
  lemma WriteKeepsOrder(p: seq<NodeRecord>, keys: seq<string>, x: NodeRecord)
    requires forall k :: k in keys ==> HasNodeId(p, k)
    requires x.nodeId !in keys ==> !HasNodeId(p, x.nodeId)
    requires InFirstOrder(p, keys)
    ensures InFirstOrder(p + [x], if x.nodeId in keys then keys else keys + [x.nodeId])
  {
    var q, keys' := p + [x], if x.nodeId in keys then keys else keys + [x.nodeId];
    forall k | k in keys
      ensures HasNodeId(q, k) && FirstWith(q, k) == FirstWith(p, k)
    {
      HasNodeIdSnoc(p, x, k);
      FirstWithSnoc(p, x, k);
    }
    if x.nodeId !in keys {
      HasNodeIdSnoc(p, x, x.nodeId);
      FirstWithSnoc(p, x, x.nodeId);
    }
    forall a, b | 0 <= a < b < |keys'|
      ensures HasNodeId(q, keys'[a]) && HasNodeId(q, keys'[b]) && FirstWith(q, keys'[a]) < FirstWith(q, keys'[b])
    {
      assert keys'[a] == keys[a] && keys[a] in keys;
      if b < |keys| {
        assert keys'[b] == keys[b] && keys[b] in keys;
      } else {
        assert keys'[b] == x.nodeId;
      }
    }
  }

  /** The keys are exactly the ids seen so far. */
  lemma KnownIds(p: seq<NodeRecord>, keys: seq<string>, m: map<string, NodeRecord>, x: NodeRecord)
    requires KeysOf(keys, m) && Covers(p, m) && MapsToLast(p, m)
    ensures forall k :: k in keys ==> HasNodeId(p, k)
    ensures x.nodeId !in keys ==> !HasNodeId(p, x.nodeId)
    ensures KeysAfter(keys, m, x) == if x.nodeId in keys then keys else keys + [x.nodeId]
  {
    forall k | k in keys
      ensures HasNodeId(p, k)
    {
      assert k in m;
    }
    forall j | 0 <= j < |p|
      ensures p[j].nodeId in keys
    {
      assert p[j].nodeId in m;
    }
  }

  /** `unique_nodes[x['node_id']] = x`: a new key goes to the end of the key
      order, an existing one keeps its place. */
  lemma DictSnoc(p: seq<NodeRecord>, x: NodeRecord, keys: seq<string>, m: map<string, NodeRecord>)
    requires DictOf(p, keys, m)
    ensures DictOf(p + [x], KeysAfter(keys, m, x), m[x.nodeId := x])
  {
    WriteKeepsKeys(keys, m, x);
    WriteCovers(p, m, x);
    WriteKeepsLast(p, m, x);
    KnownIds(p, keys, m, x);
    WriteKeepsOrder(p, keys, x);
  }

  /** The write of the `i`-th record, as the loop sees it. */
  lemma DictWrite(nodes: seq<NodeRecord>, i: nat, keys: seq<string>, m: map<string, NodeRecord>)
    requires i < |nodes| && DictOf(nodes[..i], keys, m)
    ensures DictOf(nodes[..i + 1], KeysAfter(keys, m, nodes[i]), m[nodes[i].nodeId := nodes[i]])
  {
    assert nodes[..i + 1] == nodes[..i] + [nodes[i]];
    DictSnoc(nodes[..i], nodes[i], keys, m);
  }

  /** The values of the dictionary, in key order. */
  function Values(keys: seq<string>, m: map<string, NodeRecord>): (vs: seq<NodeRecord>)
    requires forall k :: k in keys ==> k in m
    ensures |vs| == |keys|
    ensures forall j :: 0 <= j < |keys| ==> vs[j] == m[keys[j]]
  {
    seq(|keys|, j requires 0 <= j < |keys| => m[keys[j]])
  }

  /** The values of the finished dictionary are the deduplicated records. */
  lemma DictValuesDedup(nodes: seq<NodeRecord>, keys: seq<string>, m: map<string, NodeRecord>)
    requires DictOf(nodes, keys, m)
    ensures IsDedup(nodes, Values(keys, m))
  {
    var unique := Values(keys, m);
    assert forall j :: 0 <= j < |keys| ==> unique[j].nodeId == keys[j];
    assert KeysDistinct(keys) && KeysOf(keys, m) && Covers(nodes, m);
    forall j | 0 <= j < |nodes|
      ensures HasNodeId(unique, nodes[j].nodeId)
    {
      var id := nodes[j].nodeId;
      assert id in keys;
      var k :| 0 <= k < |keys| && keys[k] == id;
      assert unique[k].nodeId == id;
    }
    assert MapsToLast(nodes, m) && InFirstOrder(nodes, keys);
    forall k | 0 <= k < |unique|
      ensures HasNodeId(nodes, unique[k].nodeId) && unique[k] == nodes[LastWith(nodes, unique[k].nodeId)]
    {
      assert keys[k] in m;
    }
  }

  /** `handle_discover`'s loop `unique_nodes[node['node_id']] = node` and
      `list(unique_nodes.values())`. */
  method Deduplicate(nodes: seq<NodeRecord>) returns (unique: seq<NodeRecord>)
    ensures IsDedup(nodes, unique)
  {
    var keys: seq<string> := [];
    var m: map<string, NodeRecord> := map[];
    for i := 0 to |nodes|
      invariant DictOf(nodes[..i], keys, m)
    {
      DictWrite(nodes, i, keys, m);
      if nodes[i].nodeId !in m {
        keys := keys + [nodes[i].nodeId];
      }
      m := m[nodes[i].nodeId := nodes[i]];
    }
    assert nodes[..|nodes|] == nodes;
    DictValuesDedup(nodes, keys, m);
    unique := Values(keys, m);
  }

  /** Docker records come first and port-scan records after them, so a
      node found both ways is registered with its port-scan record. */
  lemma ScanRecordWins(docker: seq<NodeRecord>, scan: seq<NodeRecord>, unique: seq<NodeRecord>, k: nat)
    requires IsDedup(docker + scan, unique)
    requires k < |unique| && HasNodeId(scan, unique[k].nodeId)
    ensures unique[k] == scan[LastWith(scan, unique[k].nodeId)]
  {
    var all := docker + scan;
    var id := unique[k].nodeId;
    assert HasNodeId(all, id) && unique[k] == all[LastWith(all, id)];
    var l := LastWith(all, id);
    var s := LastWith(scan, id);
    assert all[|docker| + s] == scan[s];
    assert l >= |docker| + s;
    assert all[l] == scan[l - |docker|];
    assert l - |docker| <= s;
  }

  /** Records with an empty id are not dropped: they collapse into exactly
      one record, the last of them. */
  lemma EmptyIdsCollapse(nodes: seq<NodeRecord>, unique: seq<NodeRecord>)
    requires IsDedup(nodes, unique)
    requires HasNodeId(nodes, "")
    ensures HasNodeId(unique, "")
    ensures forall k :: 0 <= k < |unique| && unique[k].nodeId == "" ==> unique[k] == nodes[LastWith(nodes, "")]
  {
    var i := FirstWith(nodes, "");
    assert HasNodeId(unique, nodes[i].nodeId);
  }

  // ---------------------------------------------------------------------
  // handle_discover
  // ---------------------------------------------------------------------

  /** `args.docker_host or config.discovery.docker_host` */
  function DockerHostOf(args: DiscoverArgs, cfg: Settings): string {
    if Given(args.dockerHost) then args.dockerHost.value else cfg.dockerHost
  }

  /** `args.server or '127.0.0.1'` */
  function ServerOf(args: DiscoverArgs): string {
    if Given(args.server) then args.server.value else LocalHost
  }

  /** Everything discovered, Docker records first: nothing (a failed
      command) when the chosen port text does not parse. */
  function Discovered(args: DiscoverArgs, cfg: Settings, view: DockerView, probe: Probe): (r: Option<seq<NodeRecord>>)
    ensures r.None? <==> ScanRequested(args) && PortsToScan(args, cfg).None?
    ensures r.Some? ==> var docker := if args.fromDocker then DockerNodes(view, probe) else [];
                        |docker| <= |r.value| && r.value[..|docker|] == docker
    ensures r.Some? ==> var docker := if args.fromDocker then DockerNodes(view, probe) else [];
                        r.value == docker + (if ScanRequested(args)
                                             then ScanResult(ServerOf(args), PortsToScan(args, cfg).value, probe)
                                             else [])
  {
    var docker := if args.fromDocker then DockerNodes(view, probe) else [];
    if !ScanRequested(args) then Some(docker)
    else
      match PortsToScan(args, cfg)
      case None => None
      case Some(ports) => Some(docker + ScanResult(ServerOf(args), ports, probe))
  }

  datatype DiscoverOutcome =
    | CommandFailed      // a port text did not parse; `main` reports it and exits 1
    | NoneDiscovered     // "No nodes discovered": nothing is registered
    | Registered(nodes: seq<NodeRecord>, count: nat, sent: seq<Request>)

  /** The discovery half of `handle_discover`: Docker discovery when asked,
      then a port scan when asked, their records concatenated. */
  method Collect(args: DiscoverArgs, cfg: Settings, view: DockerView, probe: Probe)
    returns (discovered: Option<seq<NodeRecord>>)
    ensures discovered == Discovered(args, cfg, view, probe)
  {
    var found: seq<NodeRecord> := [];
    if args.fromDocker {
      var discovery := new DockerDiscovery(DockerHostOf(args, cfg));
      var dockerNodes := discovery.DiscoverNodes(view, probe);
      found := found + dockerNodes;
    }
    assert found == if args.fromDocker then DockerNodes(view, probe) else [];
    if ScanRequested(args) {
      var ports := PortsToScan(args, cfg);
      if ports.None? {
        return None;
      }
      var portNodes := ScanPorts(ServerOf(args), ports.value, probe);
      found := found + portNodes;
    }
    return Some(found);
  }

  /** `handle_discover`: the discovered records, then one record per node
      id, then registration of those records. `exchanges(i)` is the
      dashboard's answer for the i-th registered record. */
  method HandleDiscover(args: DiscoverArgs, cfg: Settings, view: DockerView, probe: Probe,
                        exchanges: nat -> Exchange)
    returns (outcome: DiscoverOutcome)
    ensures outcome == CommandFailed <==> Discovered(args, cfg, view, probe).None?
    ensures outcome == NoneDiscovered <==> Discovered(args, cfg, view, probe) == Some([])
    ensures outcome.Registered? ==>
      && IsDedup(Discovered(args, cfg, view, probe).value, outcome.nodes)
      && 0 < |outcome.nodes|
      && outcome.count == Successes(Verdicts(exchanges, |outcome.nodes|))
      && outcome.sent == SentFor(NewAuthManager(cfg.token, cfg.endpoint), outcome.nodes, exchanges)
  {
    var discovered := Collect(args, cfg, view, probe);
    if discovered.None? {
      return CommandFailed;
    }
    if |discovered.value| == 0 {
      return NoneDiscovered;
    }
    var unique := RegisterDiscovered(discovered.value, cfg, exchanges);
    return unique;
  }

  /** The registration half of `handle_discover` for a non-empty list. */
  method RegisterDiscovered(discovered: seq<NodeRecord>, cfg: Settings, exchanges: nat -> Exchange)
    returns (outcome: DiscoverOutcome)
    requires 0 < |discovered|
    ensures outcome.Registered?
    ensures IsDedup(discovered, outcome.nodes) && 0 < |outcome.nodes|
    ensures outcome.count == Successes(Verdicts(exchanges, |outcome.nodes|))
    ensures outcome.sent == SentFor(NewAuthManager(cfg.token, cfg.endpoint), outcome.nodes, exchanges)
  {
    var unique := Deduplicate(discovered);
    assert HasNodeId(unique, discovered[0].nodeId);
    var auth := NewAuthManager(cfg.token, cfg.endpoint);
    var count, sent := RegisterNodes(auth, unique, exchanges);
    return Registered(unique, count, sent);
  }

  // ---------------------------------------------------------------------
  // main: overrides, token gate, routing
  // ---------------------------------------------------------------------

  /** The `api` section of the configuration, which `main` updates. */
  class ApiConfig {
    var token: string
    var endpoint: string

    constructor (token: string, endpoint: string)
      ensures this.token == token && this.endpoint == endpoint
    {
      this.token := token;
      this.endpoint := endpoint;
    }

    /** A non-empty `--token` or `--url` replaces the configured value. */
    method Override(tokenArg: Option<string>, urlArg: Option<string>)
      modifies this
      ensures token == if Given(tokenArg) then tokenArg.value else old(token)
      ensures endpoint == if Given(urlArg) then urlArg.value else old(endpoint)
    {
      if Given(tokenArg) {
        token := tokenArg.value;
      }
      if Given(urlArg) {
        endpoint := urlArg.value;
      }
    }
  }

  datatype Gate = Proceed | Refused(message: string)

  /** The subcommands that run without a token. */
  predicate Exempt(command: Option<string>) {
    command == Some("install-service") || command == Some("help")
  }

  /** The token check of `main`: an empty token stops every command but
      `install-service` and `help`, with a message pointing at the token
      page of the dashboard. */
  function TokenGate(token: string, endpoint: string, command: Option<string>): (g: Gate)
    ensures g.Refused? <==> token == "" && !Exempt(command)
    ensures g.Refused? ==> g.message == "API token required. Get one from " + endpoint + "/settings/api-tokens"
  {
    if token == "" && !Exempt(command) then
      Refused("API token required. Get one from " + endpoint + "/settings/api-tokens")
    else Proceed
  }

  /** `main` up to routing: the overrides, then the token check on the
      resulting configuration. */
  method Startup(api: ApiConfig, tokenArg: Option<string>, urlArg: Option<string>, command: Option<string>)
    returns (g: Gate)
    modifies api
    ensures g == TokenGate(api.token, api.endpoint, command)
    ensures api.token == if Given(tokenArg) then tokenArg.value else old(api.token)
    ensures api.endpoint == if Given(urlArg) then urlArg.value else old(api.endpoint)
  {
    api.Override(tokenArg, urlArg);
    g := TokenGate(api.token, api.endpoint, command);
  }

  /** A non-empty `--token` always passes the check, whatever the
      configuration held. */
  lemma TokenArgumentPasses(configured: string, endpoint: string, tokenArg: Option<string>, command: Option<string>)
    requires Given(tokenArg)
    ensures TokenGate(if Given(tokenArg) then tokenArg.value else configured, endpoint, command) == Proceed
  {
  }

  /** The handler `main` routes a subcommand to. */
  datatype Handler = DiscoverHandler | SyncHandler | InstallServiceHandler | AuthHandler | PrintHelp

  function Route(command: Option<string>): (h: Handler)
    ensures h == DiscoverHandler <==> command == Some("discover")
    ensures h == SyncHandler <==> command == Some("sync")
    ensures h == InstallServiceHandler <==> command == Some("install-service")
    ensures h == AuthHandler <==> command == Some("auth")
    ensures h == PrintHelp <==>
      command !in {Some("discover"), Some("sync"), Some("install-service"), Some("auth")}
  {
    if command == Some("discover") then DiscoverHandler
    else if command == Some("sync") then SyncHandler
    else if command == Some("install-service") then InstallServiceHandler
    else if command == Some("auth") then AuthHandler
    else PrintHelp
  }
}

=== FILE: discovery.dfy ===
/** `src/discovery.py`: finding storage-node containers, resolving their
    dashboard and storage ports, probing the dashboard API and building node
    records (`DockerDiscovery`), and scanning a list of ports on one host
    (`PortScanner`). Docker calls and HTTP probes are inputs: the container
    attributes the two listings return, and a probe function from
    (host, port) to the parsed status document of a 200 response. */
module Discovery {
  import opened Wrappers
  import opened Text
  import opened NodeStatus

  /** `GET http://{host}:{port}/api/sno`: the JSON document of a 200
      response, or `None` for any other status, a timeout, a refused
      connection or a body that is not a JSON object. */
  type Probe = (string, int) -> Option<StatusDoc>

  // ---------------------------------------------------------------------
  // Container attributes
  // ---------------------------------------------------------------------

  /** One entry of `NetworkSettings.Ports`: the container port spec
      ("14002/tcp") and the `HostPort` of each binding, in order. A `null`
      value and an empty list are both the empty sequence (both falsy). */
  datatype PortMapping = PortMapping(spec: string, hostPorts: seq<string>)

  /** The attributes of one container: `id`, `Name`, `Config.Image`, the
      `Names` list, `NetworkSettings.Ports` in dictionary order, and
      `Config.Env`. */
  datatype Container = Container(
    id: string,
    name: string,
    image: string,
    names: seq<string>,
    ports: seq<PortMapping>,
    env: seq<string>)

  const LocalHost: string := "127.0.0.1"
  const DashboardSpec: string := "14002/tcp"
  const StorageSpec: string := "28967/tcp"
  const DefaultStoragePort: int := 28967
  const ConsolePrefix: string := "CONSOLE_ADDRESS="
  const AddressPrefix: string := "ADDRESS="
  const DashboardRangeLow: int := 14000
  const DashboardRangeHigh: int := 15000

  // ---------------------------------------------------------------------
  // Candidate selection (`_get_storj_containers`)
  // ---------------------------------------------------------------------

  /** `'storj' in name.lower() or 'storagenode' in name.lower()` */
  predicate StorjName(name: string) {
    Contains(Lower(name), "storj") || Contains(Lower(name), "storagenode")
  }

  /** Some entry of the container's `Names` list looks like a storage node. */
  predicate NameMatches(c: Container) {
    exists k | 0 <= k < |c.names| :: StorjName(c.names[k])
  }

  /** `c in containers`: Docker containers compare equal by id. */
  predicate HasId(cs: seq<Container>, id: string) {
    exists k | 0 <= k < |cs| :: cs[k].id == id
  }

  predicate DistinctIds(cs: seq<Container>) {
    forall i, j :: 0 <= i < j < |cs| ==> cs[i].id != cs[j].id
  }

  /** The union the loop builds: every running container whose name matches
      is appended, in listing order, unless a container with its id is
      already there. */
  function MergeNamed(cs: seq<Container>, running: seq<Container>): seq<Container>
    decreases |running|
  {
    if running == [] then cs
    else
      var c := running[0];
      var next := if NameMatches(c) && !HasId(cs, c.id) then cs + [c] else cs;
      MergeNamed(next, running[1..])
  }

  /** The candidates for a pair of listings, `None` standing for a listing
      call that raised (the whole selection is then empty). */
  function StorjContainers(ancestors: Option<seq<Container>>, running: Option<seq<Container>>): seq<Container> {
    if ancestors.Some? && running.Some? then MergeNamed(ancestors.value, running.value) else []
  }

  /** The union keeps every ancestor-matched container in place, adds every
      name-matched running container that is not yet present, adds nothing
      else, and adds no id twice. */
  lemma {:induction false} MergeNamedSpec(cs: seq<Container>, running: seq<Container>)
    ensures var r := MergeNamed(cs, running);
            && |cs| <= |r| && r[..|cs|] == cs
            && (forall i :: 0 <= i < |running| && NameMatches(running[i]) ==> HasId(r, running[i].id))
            && (forall k :: |cs| <= k < |r| ==> NameMatches(r[k]) && r[k] in running && !HasId(cs, r[k].id))
            && (DistinctIds(cs) ==> DistinctIds(r))
    decreases |running|
  {
    if running != [] {
      var c := running[0];
      var next := if NameMatches(c) && !HasId(cs, c.id) then cs + [c] else cs;
      MergeNamedSpec(next, running[1..]);
      var r := MergeNamed(cs, running);
      assert r == MergeNamed(next, running[1..]);
      assert r[..|next|] == next;
      assert r[..|cs|] == cs by {
        assert next[..|cs|] == cs;
      }
      forall i | 0 <= i < |running| && NameMatches(running[i])
        ensures HasId(r, running[i].id)
      {
        if i == 0 {
          if HasId(cs, c.id) {
            var k :| 0 <= k < |cs| && cs[k].id == c.id;
            assert r[k] == cs[k];
          } else {
            assert r[|cs|] == next[|cs|] == c;
          }
        } else {
          assert running[1..][i - 1] == running[i];
        }
      }
      forall k | |cs| <= k < |r|
        ensures NameMatches(r[k]) && r[k] in running && !HasId(cs, r[k].id)
      {
        if k < |next| {
          assert k == |cs| && r[k] == next[k] == c;
        } else {
          assert r[k] in running[1..];
          assert forall j :: 0 <= j < |cs| ==> next[j] == cs[j];
        }
      }
      if DistinctIds(cs) {
        assert DistinctIds(next);
      }
    }
  }

  /** The running list is handled in listing order: merging a listing in
      two parts is merging the first part and then the second, so what the
      first part adds comes before anything the second adds. */
  lemma {:induction false} MergeNamedInOrder(cs: seq<Container>, first: seq<Container>, second: seq<Container>)
    ensures MergeNamed(cs, first + second) == MergeNamed(MergeNamed(cs, first), second)
    decreases |first|
  {
    if first != [] {
      var c := first[0];
      var next := if NameMatches(c) && !HasId(cs, c.id) then cs + [c] else cs;
      assert (first + second)[0] == c && (first + second)[1..] == first[1..] + second;
      MergeNamedInOrder(next, first[1..], second);
    } else {
      assert first + second == second;
    }
  }

  // ---------------------------------------------------------------------
  // Port resolution (`_get_dashboard_port`, `_get_storage_port`)
  // ---------------------------------------------------------------------

  /** `ports[spec][0]['HostPort']` when `spec in ports and ports[spec]`. */
  function MappedHostPort(ports: seq<PortMapping>, spec: string): Option<string> {
    if ports == [] then None
    else if ports[0].spec == spec then
      (if |ports[0].hostPorts| > 0 then Some(ports[0].hostPorts[0]) else None)
    else MappedHostPort(ports[1..], spec)
  }

  /** An environment entry `PREFIX=value` whose value holds a colon. */
  predicate HasAddress(e: string, prefix: string) {
    StartsWith(e, prefix) && ':' in AfterFirst(e, '=')
  }

  /** The position of the first `PREFIX=host:port` entry, `|env|` when there
      is none. */
  function FirstAddress(env: seq<string>, prefix: string): (i: nat)
    ensures i <= |env|
    ensures i < |env| ==> HasAddress(env[i], prefix)
    ensures forall j :: 0 <= j < i ==> !HasAddress(env[j], prefix)
  {
    FirstWhere(e => HasAddress(e, prefix), env)
  }

  /** The port text of the first `PREFIX=host:port` entry: what follows the
      last colon of its value. Entries with the prefix but no colon are
      passed over. */
  function EnvPortText(env: seq<string>, prefix: string): Option<string> {
    var i := FirstAddress(env, prefix);
    if i < |env| then Some(AfterLast(AfterFirst(env[i], '='), ':')) else None
  }

  /** `int(text)` as a port lookup result: a text that is not an integer
      raises. */
  function PortOf(text: string): Result<Option<int>> {
    match PyInt(text)
    case Some(n) => Ok(Some(n))
    case None => Err("invalid literal for int()")
  }

  /** The mapping the range rule picks: published, TCP, and a container port
      in [14000, 15000]. */
  predicate InDashboardRange(m: PortMapping) {
    && |m.hostPorts| > 0 && EndsWith(m.spec, "/tcp")
    && PyInt(Split(m.spec, '/')[0]).Some?
    && DashboardRangeLow <= PyInt(Split(m.spec, '/')[0]).value <= DashboardRangeHigh
  }

  /** A mapping the range rule passes over without raising. */
  predicate PassedOver(m: PortMapping) {
    || |m.hostPorts| == 0 || !EndsWith(m.spec, "/tcp")
    || (PyInt(Split(m.spec, '/')[0]).Some? && !InDashboardRange(m))
  }

  /** The position of the first mapping the range rule does not pass
      over, `|ports|` when it passes over all of them. */
  function FirstExamined(ports: seq<PortMapping>): (i: nat)
    ensures i <= |ports|
    ensures i < |ports| ==> !PassedOver(ports[i])
    ensures forall j :: 0 <= j < i ==> PassedOver(ports[j])
  {
    FirstWhere(m => !PassedOver(m), ports)
  }

  /** The third dashboard rule, as the loop runs it: the mappings are
      examined in order and the first one that is published, TCP and not
      passed over decides. Its host port is the answer when its container
      port is in the dashboard range; a TCP spec whose port is not an
      integer raises. */
  function RangeMappedPort(ports: seq<PortMapping>): Result<Option<int>>
    decreases |ports|
  {
    if ports == [] then Ok(None)
    else
      var m := ports[0];
      if |m.hostPorts| > 0 && EndsWith(m.spec, "/tcp") then
        match PyInt(Split(m.spec, '/')[0])
        case None => Err("invalid literal for int()")
        case Some(containerPort) =>
          if DashboardRangeLow <= containerPort <= DashboardRangeHigh then PortOf(m.hostPorts[0])
          else RangeMappedPort(ports[1..])
      else RangeMappedPort(ports[1..])
  }

  /** The loop's answer is decided by the first mapping it does not pass
      over: nothing when there is none, its host port when it is in the
      dashboard range, an error when its container port is not a number. */
  lemma {:induction false} RangeMappedPortFirst(ports: seq<PortMapping>)
    ensures var i := FirstExamined(ports);
            && (i == |ports| ==> RangeMappedPort(ports) == Ok(None))
            && (i < |ports| && InDashboardRange(ports[i]) ==>
                  RangeMappedPort(ports) == PortOf(ports[i].hostPorts[0]))
            && (i < |ports| && !InDashboardRange(ports[i]) ==>
                  RangeMappedPort(ports).Err?)
    decreases |ports|
  {
    if ports != [] && PassedOver(ports[0]) {
      RangeMappedPortFirst(ports[1..]);
    }
  }

  /** `_get_dashboard_port`: `Ok(Some(p))` for a resolved port, `Ok(None)`
      when no rule applies, `Err` when `int()` raises on the text a rule
      picked. */
  function DashboardPort(c: Container): (r: Result<Option<int>>)
    ensures MappedHostPort(c.ports, DashboardSpec).Some? ==> r == PortOf(MappedHostPort(c.ports, DashboardSpec).value)
    ensures MappedHostPort(c.ports, DashboardSpec).None?
            && (forall j :: 0 <= j < |c.env| ==> !HasAddress(c.env[j], ConsolePrefix))
            ==> r == RangeMappedPort(c.ports)
  {
    match MappedHostPort(c.ports, DashboardSpec)
    case Some(hostPort) => PortOf(hostPort)
    case None =>
      match EnvPortText(c.env, ConsolePrefix)
      case Some(text) => PortOf(text)
      case None => RangeMappedPort(c.ports)
  }

  /** `_get_storage_port`: the mapped 28967/tcp port, else the port of the
      first `ADDRESS=host:port` entry, else 28967. */
  function StoragePort(c: Container): (r: Result<int>)
    ensures MappedHostPort(c.ports, StorageSpec).None? && EnvPortText(c.env, AddressPrefix).None?
            ==> r == Ok(DefaultStoragePort)
    ensures MappedHostPort(c.ports, StorageSpec).Some?
            ==> r == (if PyInt(MappedHostPort(c.ports, StorageSpec).value).Some?
                      then Ok(PyInt(MappedHostPort(c.ports, StorageSpec).value).value)
                      else Err("invalid literal for int()"))
    ensures MappedHostPort(c.ports, StorageSpec).None? && EnvPortText(c.env, AddressPrefix).Some?
            ==> r == (if PyInt(EnvPortText(c.env, AddressPrefix).value).Some?
                      then Ok(PyInt(EnvPortText(c.env, AddressPrefix).value).value)
                      else Err("invalid literal for int()"))
  {
    match MappedHostPort(c.ports, StorageSpec)
    case Some(hostPort) =>
      (match PyInt(hostPort) case Some(n) => Ok(n) case None => Err("invalid literal for int()"))
    case None =>
      match EnvPortText(c.env, AddressPrefix)
      case Some(text) =>
        (match PyInt(text) case Some(n) => Ok(n) case None => Err("invalid literal for int()"))
      case None => Ok(DefaultStoragePort)
  }

  /** A published 14002/tcp mapping decides the dashboard port: the
      environment and the other mappings are not consulted. */
  lemma MappedDashboardPortWins(c: Container, env: seq<string>, hostPort: string)
    requires MappedHostPort(c.ports, DashboardSpec) == Some(hostPort)
    ensures DashboardPort(c) == DashboardPort(c.(env := env)) == PortOf(hostPort)
  {
  }

  /** Without a published 14002/tcp mapping, the first `CONSOLE_ADDRESS`
      entry with a colon decides before any other mapping is looked at. */
  lemma ConsoleAddressBeforeRange(c: Container, i: nat)
    requires MappedHostPort(c.ports, DashboardSpec).None?
    requires i < |c.env| && HasAddress(c.env[i], ConsolePrefix)
    requires forall j :: 0 <= j < i ==> !HasAddress(c.env[j], ConsolePrefix)
    ensures DashboardPort(c) == PortOf(AfterLast(AfterFirst(c.env[i], '='), ':'))
  {
    var k := FirstAddress(c.env, ConsolePrefix);
    assert k == i;
  }

  /** A `CONSOLE_ADDRESS=` entry is never an `ADDRESS=` entry: the storage
      port never comes from the console address. */
  lemma ConsoleIsNotAddress(e: string)
    requires StartsWith(e, ConsolePrefix)
    ensures !StartsWith(e, AddressPrefix)
  {
    assert e[0] == 'C';
  }

  // ---------------------------------------------------------------------
  // Node records
  // ---------------------------------------------------------------------

  /** `disk_space` of a record; a missing key is `None`. */
  datatype DiskRecord = DiskRecord(used: Option<int>, available: Option<int>, total: Option<int>)

  /** The node dictionary the discoverers produce and `register_nodes`
      consumes. Keys read with `node[...]` are plain fields; keys read with
      `node.get(...)` are `Option`s, `None` when the key is missing. */
  datatype NodeRecord = NodeRecord(
    nodeId: string,
    name: Option<string>,
    address: string,
    dashboardPort: int,
    storagePort: Option<int>,
    version: Option<string>,
    status: Option<Health>,
    disk: Option<DiskRecord>,
    bandwidth: Option<Bandwidth>,
    uptime: Option<int>,
    lastContact: Option<string>,
    containerId: Option<string>,
    containerName: Option<string>,
    image: Option<string>,
    detectedFrom: Option<string>)

  /** The disk block of a built record: used and available as reported (0
      when missing) and a total that is their sum. */
  predicate DiskConsistent(n: NodeRecord) {
    && n.disk.Some? && n.disk.value.used.Some? && n.disk.value.available.Some?
    && n.disk.value.total == Some(n.disk.value.used.value + n.disk.value.available.value)
  }

  /** The part of the record both discoverers derive from a status
      document in the same way. */
  function RecordFromDoc(d: StatusDoc, name: string, address: string, dashboardPort: int, storagePort: int,
                         container: Option<Container>, detectedFrom: string): (n: NodeRecord)
    ensures DiskConsistent(n)
    ensures n.disk.value.used == Some(UsedSpace(d)) && n.disk.value.available == Some(AvailableSpace(d))
    ensures n.status == Some(DiscoveryHealth(d))
    ensures n.nodeId == (if d.nodeID.Some? then d.nodeID.value else "")
    ensures n.version == Some(if d.version.Some? then d.version.value else "")
    ensures n.uptime == Some(if d.uptime.Some? then d.uptime.value else 0)
    ensures n.bandwidth == Some(if d.bandwidth.Some? then d.bandwidth.value else Bandwidth(None))
    ensures n.lastContact == d.lastContactSuccess
    ensures n.name == Some(name) && n.address == address && n.dashboardPort == dashboardPort
    ensures n.storagePort == Some(storagePort) && n.detectedFrom == Some(detectedFrom)
    ensures n.containerId == (if container.Some? then Some(container.value.id) else None)
  {
    var used := UsedSpace(d);
    var available := AvailableSpace(d);
    NodeRecord(
      nodeId := d.nodeID.GetOr(""),
      name := Some(name),
      address := address,
      dashboardPort := dashboardPort,
      storagePort := Some(storagePort),
      version := Some(d.version.GetOr("")),
      status := Some(DiscoveryHealth(d)),
      disk := Some(DiskRecord(Some(used), Some(available), Some(used + available))),
      bandwidth := Some(d.bandwidth.GetOr(Bandwidth(None))),
      uptime := Some(d.uptime.GetOr(0)),
      lastContact := d.lastContactSuccess,
      containerId := if container.Some? then Some(container.value.id) else None,
      containerName := if container.Some? then Some(name) else None,
      image := if container.Some? then Some(container.value.image) else None,
      detectedFrom := Some(detectedFrom))
  }

  /** A dashboard port that resolved to a non-zero number. */
  predicate ResolvedDashboard(c: Container) {
    var p := DashboardPort(c);
    p.Ok? && p.value.Some? && p.value.value != 0
  }

  /** `_extract_node_info`: a record for a container whose dashboard port
      resolves to a truthy port, whose dashboard answers with a non-empty
      document on the loopback address, and whose storage port resolves;
      nothing otherwise. */
  function ExtractNodeInfo(c: Container, probe: Probe): (r: Option<NodeRecord>)
    ensures r.Some? <==>
      && ResolvedDashboard(c)
      && probe(LocalHost, DashboardPort(c).value.value).Some?
      && IsNonEmpty(probe(LocalHost, DashboardPort(c).value.value).value)
      && StoragePort(c).Ok?
    ensures r.Some? ==>
      var d := probe(LocalHost, DashboardPort(c).value.value).value;
      && r.value.dashboardPort == DashboardPort(c).value.value
      && r.value.address == LocalHost
      && r.value.storagePort == Some(StoragePort(c).value)
      && r.value.nodeId == d.nodeID.GetOr("")
      && r.value.status == Some(DiscoveryHealth(d))
      && r.value.name == r.value.containerName == Some(LStrip(c.name, '/'))
      && r.value.containerId == Some(c.id) && r.value.image == Some(c.image)
      && r.value.detectedFrom == Some("docker")
      && DiskConsistent(r.value)
    ensures r.Some? ==>
      r.value == RecordFromDoc(probe(LocalHost, DashboardPort(c).value.value).value, LStrip(c.name, '/'),
                               LocalHost, DashboardPort(c).value.value, StoragePort(c).value, Some(c), "docker")
  {
    match DashboardPort(c)
    case Err(_) => None
    case Ok(None) => None
    case Ok(Some(port)) =>
      if port == 0 then None
      else
        match probe(LocalHost, port)
        case None => None
        case Some(d) =>
          if !IsNonEmpty(d) then None
          else
            match StoragePort(c)
            case Err(_) => None
            case Ok(storagePort) =>
              var name := LStrip(c.name, '/');
              Some(RecordFromDoc(d, name, LocalHost, port, storagePort, Some(c), "docker"))
  }

  function ExtractWith(probe: Probe): Container -> Option<NodeRecord> {
    c => ExtractNodeInfo(c, probe)
  }

  /** What the Docker daemon answers: whether a client could be created for
      the host, whether `ping` succeeded, and the two `containers.list`
      results (`None` when the call raised). */
  datatype DockerView = DockerView(
    connectOk: bool,
    pingOk: bool,
    ancestors: Option<seq<Container>>,
    running: Option<seq<Container>>)

  /** `discover_nodes`: the records of the candidates, in candidate order;
      nothing when the daemon is unreachable. */
  function DockerNodes(v: DockerView, probe: Probe): seq<NodeRecord> {
    if v.connectOk && v.pingOk then FilterMap(ExtractWith(probe), StorjContainers(v.ancestors, v.running)) else []
  }

  /** Every record Docker discovery returns was built from a container
      with a truthy dashboard port, points at the loopback address, and
      has a consistent disk block. */
  lemma DockerNodesWellFormed(v: DockerView, probe: Probe, k: nat)
    requires k < |DockerNodes(v, probe)|
    ensures var n := DockerNodes(v, probe)[k];
            n.address == LocalHost && n.dashboardPort != 0 && DiskConsistent(n)
            && n.detectedFrom == Some("docker") && n.containerId.Some?
  {
    var cs := StorjContainers(v.ancestors, v.running);
    FilterMapFrom(ExtractWith(probe), cs, k);
  }

  /** The client handle's life cycle: never opened, open, closed. */
  datatype ClientState = NoClient | Open | Closed

  class DockerDiscovery {
    const dockerHost: string
    var client: ClientState

    constructor (dockerHost: string)
      ensures this.dockerHost == dockerHost && client == NoClient
    {
      this.dockerHost := dockerHost;
      client := NoClient;
    }

    /** `_get_storj_containers`: the ancestor list, extended in listing
        order by every running container whose name matches and whose id
        is not yet present; an empty list when a listing raised. */
    method GetStorjContainers(ancestors: Option<seq<Container>>, running: Option<seq<Container>>)
      returns (containers: seq<Container>)
      ensures containers == StorjContainers(ancestors, running)
    {
      if ancestors.None? || running.None? {
        return [];
      }
      containers := ancestors.value;
      var all := running.value;
      for i := 0 to |all|
        invariant MergeNamed(containers, all[i..]) == MergeNamed(ancestors.value, all)
      {
        assert all[i..][1..] == all[i + 1..];
        var c := all[i];
        if NameMatches(c) {
          if !HasId(containers, c.id) {
            containers := containers + [c];
          }
        }
      }
    }

    /** `discover_nodes`: creates a client, builds one record per candidate
        that yields one, and closes the client it holds on every path. When
        the client cannot be created, the handle of an earlier call (if
        any) is the one closed. */
    method DiscoverNodes(view: DockerView, probe: Probe) returns (nodes: seq<NodeRecord>)
      modifies this
      ensures client == (if !view.connectOk && old(client) == NoClient then NoClient else Closed)
      ensures nodes == DockerNodes(view, probe)
    {
      if !view.connectOk {
        if client != NoClient {
          client := Closed;
        }
        return [];
      }
      client := Open;
      if !view.pingOk {
        client := Closed;
        return [];
      }
      var containers := GetStorjContainers(view.ancestors, view.running);
      nodes := [];
      for i := 0 to |containers|
        invariant nodes == FilterMap(ExtractWith(probe), containers[..i])
      {
        var info := ExtractNodeInfo(containers[i], probe);
        FilterMapAppend(ExtractWith(probe), containers[..i], [containers[i]]);
        assert containers[..i + 1] == containers[..i] + [containers[i]];
        if info.Some? {
          nodes := nodes + [info.value];
        }
      }
      assert containers[..|containers|] == containers;
      client := Closed;
    }
  }

  // ---------------------------------------------------------------------
  // Port scanning (`PortScanner`)
  // ---------------------------------------------------------------------

  /** `_check_port`: a record for a port whose dashboard answers 200, named
      after the port and given the default storage port. Unlike Docker
      discovery, an empty document still yields a record. */
  function CheckPort(host: string, port: int, probe: Probe): (r: Option<NodeRecord>)
    ensures r.Some? <==> probe(host, port).Some?
    ensures r.Some? ==>
      && r.value.name == Some("Node-" + ShowInt(port))
      && r.value.address == host && r.value.dashboardPort == port
      && r.value.storagePort == Some(DefaultStoragePort)
      && r.value.status == Some(DiscoveryHealth(probe(host, port).value))
      && r.value.detectedFrom == Some("port_scan")
      && r.value.containerId.None?
      && DiskConsistent(r.value)
    ensures r.Some? ==>
      r.value == RecordFromDoc(probe(host, port).value, "Node-" + ShowInt(port), host, port, DefaultStoragePort,
                               None, "port_scan")
  {
    match probe(host, port)
    case None => None
    case Some(d) =>
      Some(RecordFromDoc(d, "Node-" + ShowInt(port), host, port, DefaultStoragePort, None, "port_scan"))
  }

  function CheckWith(host: string, probe: Probe): int -> Option<NodeRecord> {
    p => CheckPort(host, p, probe)
  }

  /** The records a scan of `ports` on `host` yields, in port order. */
  function ScanResult(host: string, ports: seq<int>, probe: Probe): seq<NodeRecord> {
    FilterMap(CheckWith(host, probe), ports)
  }

  /** `scan_ports`: checks the ports one after the other and keeps the
      record of each port that answered. */
  method ScanPorts(host: string, ports: seq<int>, probe: Probe) returns (nodes: seq<NodeRecord>)
    ensures nodes == ScanResult(host, ports, probe)
  {
    nodes := [];
    for i := 0 to |ports|
      invariant nodes == ScanResult(host, ports[..i], probe)
    {
      var result := CheckPort(host, ports[i], probe);
      FilterMapAppend(CheckWith(host, probe), ports[..i], [ports[i]]);
      assert ports[..i + 1] == ports[..i] + [ports[i]];
      if result.Some? {
        nodes := nodes + [result.value];
      }
    }
    assert ports[..|ports|] == ports;
  }

  /** A scan yields a record for every port that answered, and each record
      it yields belongs to a scanned port that answered, carries that port
      in its name and the default storage port. */
  lemma ScanResultSpec(host: string, ports: seq<int>, probe: Probe)
    ensures var nodes := ScanResult(host, ports, probe);
            && |nodes| <= |ports|
            && (forall i :: 0 <= i < |ports| && probe(host, ports[i]).Some? ==>
                  CheckPort(host, ports[i], probe).value in nodes)
            && (forall k :: 0 <= k < |nodes| ==>
                  && nodes[k].dashboardPort in ports
                  && probe(host, nodes[k].dashboardPort).Some?
                  && nodes[k].name == Some("Node-" + ShowInt(nodes[k].dashboardPort))
                  && nodes[k].storagePort == Some(DefaultStoragePort)
                  && nodes[k].address == host
                  && DiskConsistent(nodes[k]))
  {
    var nodes := ScanResult(host, ports, probe);
    forall i | 0 <= i < |ports| && probe(host, ports[i]).Some?
      ensures CheckPort(host, ports[i], probe).value in nodes
    {
      FilterMapKeeps(CheckWith(host, probe), ports, i);
    }
    forall k | 0 <= k < |nodes|
      ensures && nodes[k].dashboardPort in ports
              && probe(host, nodes[k].dashboardPort).Some?
              && nodes[k].name == Some("Node-" + ShowInt(nodes[k].dashboardPort))
              && nodes[k].storagePort == Some(DefaultStoragePort)
              && nodes[k].address == host
              && DiskConsistent(nodes[k])
    {
      FilterMapFrom(CheckWith(host, probe), ports, k);
    }
  }
}

=== FILE: godiscover.dfy ===
/** `cmd/discover.go`: the Go front end of discovery. `runDiscover` checks
    the token, settles the server address, parses `--ports` (or takes the
    default dashboard ports), scans, and registers what it found. */
module GoDiscover {
  import opened Wrappers
  import opened Text
  import opened Client

  /** The dashboard ports scanned when `--ports` is not given. */
  const DefaultPorts: seq<int> := [14000, 14001, 14002, 14003, 14004, 14005]

  /** `strconv.Atoi(strings.TrimSpace(piece))`. */
  function PieceValue(piece: string): Option<int> {
    GoAtoi(Strip(piece))
  }

  /** The position of the first piece that is not a port number. */
  function FirstBad(pieces: seq<string>): (i: nat)
    ensures i <= |pieces|
    ensures i < |pieces| ==> PieceValue(pieces[i]).None?
    ensures forall j :: 0 <= j < i ==> PieceValue(pieces[j]).Some?
  {
    FirstWhere(piece => PieceValue(piece).None?, pieces)
  }

  /** The values of the pieces in order, or the error naming the first bad
      piece as it was written. */
  function ParsePieces(pieces: seq<string>): (r: Result<seq<int>>)
    ensures r.Ok? <==> forall j :: 0 <= j < |pieces| ==> PieceValue(pieces[j]).Some?
    ensures r.Ok? ==> |r.value| == |pieces|
                      && forall j :: 0 <= j < |pieces| ==> r.value[j] == PieceValue(pieces[j]).value
    ensures r.Err? ==> FirstBad(pieces) < |pieces| && r.error == "invalid port: " + pieces[FirstBad(pieces)]
  {
    var bad := FirstBad(pieces);
    if bad < |pieces| then Err("invalid port: " + pieces[bad])
    else Ok(seq(|pieces|, j requires 0 <= j < |pieces| => PieceValue(pieces[j]).value))
  }

  /** The ports `runDiscover` scans for a `--ports` text. */
  function PortList(custom: string): Result<seq<int>> {
    if custom == "" then Ok(DefaultPorts) else ParsePieces(Split(custom, ','))
  }

  /** The ports of `runDiscover`: the default ports without `--ports`,
      else the comma-separated pieces of its text. */
  method ParsePorts(custom: string) returns (r: Result<seq<int>>)
    ensures r == PortList(custom)
  {
    if custom == "" {
      return Ok(DefaultPorts);
    }
    r := ParseEachPiece(Split(custom, ','));
  }

  /** The `--ports` loop of `runDiscover`: each piece trimmed and converted
      in turn, returning at the first that is not a number. */
  method ParseEachPiece(pieces: seq<string>) returns (r: Result<seq<int>>)
    ensures r == ParsePieces(pieces)
  {
    var bad := FirstBad(pieces);
    var ports: seq<int> := [];
    for i := 0 to |pieces|
      invariant i <= bad
      invariant |ports| == i
      invariant forall j :: 0 <= j < i ==> ports[j] == PieceValue(pieces[j]).value
    {
      var port := PieceValue(pieces[i]);
      if port.None? {
        assert i == bad;
        return Err("invalid port: " + pieces[i]);
      }
      assert i < bad;
      ports := ports + [port.value];
      assert ports[i] == PieceValue(pieces[i]).value;
    }
    var expected := ParsePieces(pieces);
    assert expected.Ok?;
    assert forall j :: 0 <= j < |ports| ==> ports[j] == expected.value[j];
    assert ports == expected.value;
    return Ok(ports);
  }

  /** Within the range of Go's `int`, the Go and the Python front ends read
      a `--ports` text the same way: one parses it exactly when the other
      does, to the same list. */
  lemma {:induction false} AgreesWithPython(custom: string)
    requires custom != ""
    ensures PortList(custom).Ok? ==> ParsePortList(custom) == Some(PortList(custom).value)
    ensures ParsePortList(custom).Some?
            && (forall k :: 0 <= k < |ParsePortList(custom).value| ==>
                  MinInt64 <= ParsePortList(custom).value[k] <= MaxInt64)
            ==> PortList(custom) == Ok(ParsePortList(custom).value)
  {
    var pieces := Split(custom, ',');
    var go, py := ParsePieces(pieces), ParseEach(pieces);
    if go.Ok? {
      forall j | 0 <= j < |pieces|
        ensures PyInt(pieces[j]) == Some(go.value[j])
      {
        assert PieceValue(pieces[j]).Some?;
      }
      assert py.Some?;
      assert py.value == go.value;
    }
    if py.Some? && forall k :: 0 <= k < |py.value| ==> MinInt64 <= py.value[k] <= MaxInt64 {
      forall j | 0 <= j < |pieces|
        ensures PieceValue(pieces[j]) == Some(py.value[j])
      {
        assert PyInt(pieces[j]) == ParseInt(Strip(pieces[j]));
      }
      assert FirstBad(pieces) == |pieces|;
      assert go.value == py.value;
    }
  }

  /** A non-empty list of ports written out with commas parses back to the
      same list. */
  lemma PortListRoundTrip(ports: seq<int>)
    requires |ports| >= 1
    requires forall k :: 0 <= k < |ports| ==> MinInt64 <= ports[k] <= MaxInt64
    ensures PortList(Join(Shown(ports), ',')) == Ok(ports)
  {
    var text := Join(Shown(ports), ',');
    Client.PortListRoundTrip(ports);
    assert IsNumeral(ShowNat(if ports[0] < 0 then -ports[0] else ports[0]));
    assert Shown(ports)[0] == ShowInt(ports[0]) && |ShowInt(ports[0])| > 0;
    JoinHead(Shown(ports), ',');
    AgreesWithPython(text);
  }

  /** The text of a join starts with the first piece. */
  lemma JoinHead(pieces: seq<string>, sep: char)
    requires |pieces| >= 1
    ensures |Join(pieces, sep)| >= |pieces[0]|
  {
  }

  /** How `runDiscover` returns: an error with its message, nil after
      finding nothing, or nil after registering. */
  datatype RunOutcome =
    | Failed(message: string)
    | NoNodes
    | RegisteredNodes(count: int)

  /** The server `runDiscover` scans: `--server`, or else the detected
      local address. */
  function ServerAddress(server: string, localIP: Result<string>): Result<string> {
    if server != "" then Ok(server)
    else
      match localIP
      case Ok(ip) => Ok(ip)
      case Err(e) => Err("failed to detect local IP: " + e)
  }

  /** `runDiscover`. `localIP` is the outcome of detecting the local
      address, `scan` the discovery service's scan of a server's ports and
      `register` its registration of the nodes found. */
  method RunDiscover<N>(token: string, url: string, server: string, customPorts: string,
                        localIP: Result<string>,
                        scan: (string, seq<int>) -> Result<seq<N>>,
                        register: seq<N> -> Result<int>)
    returns (r: RunOutcome)
    ensures token == "" ==> r == Failed(TokenGate(token, url, Some("discover")).message)
    ensures token != "" && ServerAddress(server, localIP).Err? ==>
              r == Failed(ServerAddress(server, localIP).error)
    ensures token != "" && ServerAddress(server, localIP).Ok? && PortList(customPorts).Err? ==>
              r == Failed(PortList(customPorts).error)
    ensures token != "" && ServerAddress(server, localIP).Ok? && PortList(customPorts).Ok? ==>
              var found := scan(ServerAddress(server, localIP).value, PortList(customPorts).value);
              && (found.Err? ==> r == Failed("discovery failed: " + found.error))
              && (found == Ok([]) ==> r == NoNodes)
              && (found.Ok? && found.value != [] ==>
                    r == match register(found.value)
                         case Ok(n) => RegisteredNodes(n)
                         case Err(e) => Failed("failed to register nodes: " + e))
    ensures r.RegisteredNodes? ==> token != "" && PortList(customPorts).Ok?
  {
    if token == "" {
      return Failed("API token required. Get one from " + url + "/settings/api-tokens");
    }
    var host := ServerAddress(server, localIP);
    if host.Err? {
      return Failed(host.error);
    }
    var ports := ParsePorts(customPorts);
    if ports.Err? {
      return Failed(ports.error);
    }
    var found := scan(host.value, ports.value);
    if found.Err? {
      return Failed("discovery failed: " + found.error);
    }
    if |found.value| == 0 {
      return NoNodes;
    }
    var registered := register(found.value);
    if registered.Err? {
      return Failed("failed to register nodes: " + registered.error);
    }
    return RegisteredNodes(registered.value);
  }
}

=== FILE: http.dfy ===
/** The outcome of one HTTP call as the client sees it: the status code of
    the response, or an exception (connection refused, timeout, closed
    session). The HTTP layer itself is not part of this model. */
module Http {

  datatype Reply = Status(code: int) | Raised

  /** `response.status in [200, 204]`: the success rule for a PATCH. */
  predicate PatchAccepted(r: Reply) {
    r == Status(200) || r == Status(204)
  }

  /** `response.status in [200, 201]`: the success rule for a POST. */
  predicate PostAccepted(r: Reply) {
    r == Status(200) || r == Status(201)
  }
}

=== FILE: status.dfy ===
/** The status document a storage node serves at `/api/sno`, and the two
    health classifiers the client applies to it: the one in
    `src/discovery.py` (used by `DockerDiscovery` and `PortScanner`) and the
    one in `src/sync.py`, which also recognises disqualification. */
module NodeStatus {
  import opened Wrappers

  /** A JSON scalar, kept only to give Python's truthiness to a field whose
      type the program never checks. */
  datatype Scalar = Null | Bool(b: bool) | Number(x: real) | Str(s: string)

  /** `bool(doc.get(key))` for a scalar field. */
  predicate Truthy(v: Option<Scalar>) {
    match v
    case None => false
    case Some(Null) => false
    case Some(Bool(b)) => b
    case Some(Number(x)) => x != 0.0
    case Some(Str(s)) => s != ""
  }

  /** The `reputation` object; a missing score is `None`. */
  datatype Reputation = Reputation(auditScore: Option<real>, suspensionScore: Option<real>)

  datatype DiskSpace = DiskSpace(used: Option<int>, available: Option<int>)

  datatype Bandwidth = Bandwidth(used: Option<int>)

  /** The keys of the status document the client reads; a missing key is
      `None`. `otherKeys` records whether the document holds any key the
      client does not read, which matters only for its truthiness. A key
      whose value is `null` counts among those other keys: it makes the
      document truthy while reading as missing. */
  datatype StatusDoc = StatusDoc(
    nodeID: Option<string>,
    version: Option<string>,
    diskSpace: Option<DiskSpace>,
    bandwidth: Option<Bandwidth>,
    uptime: Option<int>,
    lastContactSuccess: Option<string>,
    disqualified: Option<Scalar>,
    reputation: Option<Reputation>,
    otherKeys: bool)

  /** `bool(doc)`: a dict is falsy exactly when it has no keys. */
  predicate IsNonEmpty(d: StatusDoc) {
    || d.nodeID.Some? || d.version.Some? || d.diskSpace.Some? || d.bandwidth.Some?
    || d.uptime.Some? || d.lastContactSuccess.Some? || d.disqualified.Some?
    || d.reputation.Some? || d.otherKeys
  }

  /** `doc.get('diskSpace', {}).get('used', 0)` */
  function UsedSpace(d: StatusDoc): int {
    match d.diskSpace
    case Some(ds) => ds.used.GetOr(0)
    case None => 0
  }

  /** `doc.get('diskSpace', {}).get('available', 0)` */
  function AvailableSpace(d: StatusDoc): int {
    match d.diskSpace
    case Some(ds) => ds.available.GetOr(0)
    case None => 0
  }

  datatype Health = Online | Warning | Suspended | Disqualified | Offline

  /** The status string sent to the dashboard. */
  function Label(h: Health): (s: string)
    ensures s in {"ONLINE", "WARNING", "SUSPENDED", "DISQUALIFIED", "OFFLINE"}
    ensures s == "ONLINE" <==> h == Online
    ensures s == "WARNING" <==> h == Warning
    ensures s == "SUSPENDED" <==> h == Suspended
    ensures s == "DISQUALIFIED" <==> h == Disqualified
    ensures s == "OFFLINE" <==> h == Offline
  {
    match h
    case Online => "ONLINE"
    case Warning => "WARNING"
    case Suspended => "SUSPENDED"
    case Disqualified => "DISQUALIFIED"
    case Offline => "OFFLINE"
  }

  /** `not doc.get('lastContactSuccess')` is false: a non-empty timestamp. */
  predicate HasContact(d: StatusDoc) {
    d.lastContactSuccess.Some? && d.lastContactSuccess.value != ""
  }

  /** `reputation.get('auditScore', 1.0)` */
  function AuditScore(r: Reputation): real {
    r.auditScore.GetOr(1.0)
  }

  /** `reputation.get('suspensionScore', 0.0)` */
  function SuspensionScore(r: Reputation): real {
    r.suspensionScore.GetOr(0.0)
  }

  const AuditThreshold: real := 0.95

  /** Suspended: a reputation block whose suspension score is positive. */
  predicate SuspendedBy(d: StatusDoc) {
    d.reputation.Some? && SuspensionScore(d.reputation.value) > 0.0
  }

  /** Warning: a reputation block whose audit score is below 0.95. */
  predicate WarnedBy(d: StatusDoc) {
    d.reputation.Some? && AuditScore(d.reputation.value) < AuditThreshold
  }

  /** The rule chain shared by both classifiers once contact and
      disqualification have been checked: suspension before audit. */
  function ReputationHealth(d: StatusDoc): Health {
    if d.reputation.Some? then
      var r := d.reputation.value;
      if SuspensionScore(r) > 0.0 then Suspended
      else if AuditScore(r) < AuditThreshold then Warning
      else Online
    else Online
  }

  /** `_determine_status` of `DockerDiscovery` and of `PortScanner`. Its
      result is one of four states and is decided by the first rule that
      applies: no contact, then suspension, then a low audit score. */
  function DiscoveryHealth(d: StatusDoc): (h: Health)
    ensures h != Disqualified
    ensures h == Offline <==> !HasContact(d)
    ensures h == Suspended <==> HasContact(d) && SuspendedBy(d)
    ensures h == Warning <==> HasContact(d) && !SuspendedBy(d) && WarnedBy(d)
    ensures h == Online <==> HasContact(d) && !SuspendedBy(d) && !WarnedBy(d)
  {
    if !HasContact(d) then Offline else ReputationHealth(d)
  }

  /** `_determine_status` of `NodeSync`: the same chain with a
      disqualification rule between contact and suspension. */
  function SyncHealth(d: StatusDoc): (h: Health)
    ensures h == Offline <==> !HasContact(d)
    ensures h == Disqualified <==> HasContact(d) && Truthy(d.disqualified)
    ensures h == Suspended <==> HasContact(d) && !Truthy(d.disqualified) && SuspendedBy(d)
    ensures h == Warning <==> HasContact(d) && !Truthy(d.disqualified) && !SuspendedBy(d) && WarnedBy(d)
    ensures h == Online <==> HasContact(d) && !Truthy(d.disqualified) && !SuspendedBy(d) && !WarnedBy(d)
  {
    if !HasContact(d) then Offline
    else if Truthy(d.disqualified) then Disqualified
    else ReputationHealth(d)
  }

  /** The two classifiers differ only on a contacted, disqualified node. */
  lemma SyncAgreesWithDiscovery(d: StatusDoc)
    ensures !(HasContact(d) && Truthy(d.disqualified)) ==> SyncHealth(d) == DiscoveryHealth(d)
    ensures HasContact(d) && Truthy(d.disqualified) ==> SyncHealth(d) == Disqualified != DiscoveryHealth(d)
  {
  }

  /** A document without reputation data, or with a reputation block that
      gives neither score, is never classified by reputation. */
  lemma MissingScoresMeanHealthy(d: StatusDoc)
    requires HasContact(d)
    requires d.reputation.None? || d.reputation.value == Reputation(None, None)
    ensures DiscoveryHealth(d) == Online
    ensures !Truthy(d.disqualified) ==> SyncHealth(d) == Online
  {
  }
}

=== FILE: sync.dfy ===
/** `src/sync.py`: the sync daemon. Each cycle lists the nodes registered
    with the dashboard, splits them into fixed-size batches, and for every
    node fetches its status document from the node's own dashboard and
    PATCHes a summary of it back to the dashboard. The dashboard's and the
    nodes' replies, the clock and the moment the daemon is stopped are
    inputs. */
module Sync {
  import opened Wrappers
  import opened Text
  import opened Http
  import opened NodeStatus

  // ---------------------------------------------------------------------
  // Registered nodes and probe targets
  // ---------------------------------------------------------------------

  /** A node as the dashboard lists it: its registry `id`, its `nodeId`
      (any JSON value), its `dashboardPort` and its `address`; a missing key
      is `None`. */
  datatype RemoteNode = RemoteNode(
    id: Option<string>,
    nodeId: Option<Scalar>,
    dashboardPort: Option<int>,
    address: Option<string>)

  const DefaultDashboardPort: int := 14002
  const DefaultAddress: string := "127.0.0.1"

  /** `_get_registered_nodes`: the `nodes` list of a 200 answer (empty when
      the key is missing); nothing for any other status or an exception. */
  function RegisteredNodes(reply: Reply, listed: Option<seq<RemoteNode>>): (nodes: seq<RemoteNode>)
    ensures reply != Status(200) ==> nodes == []
    ensures reply == Status(200) && listed.Some? ==> nodes == listed.value
    ensures reply == Status(200) && listed.None? ==> nodes == []
  {
    if reply == Status(200) then listed.GetOr([]) else []
  }

  /** The host and port `_fetch_node_data` probes: the node's address,
      else the loopback address; its dashboard port when truthy, else
      14002. */
  function ProbeTarget(n: RemoteNode): (t: (string, int))
    ensures t.0 == (if n.address.Some? then n.address.value else DefaultAddress)
    ensures t.1 == DefaultDashboardPort <==> n.dashboardPort.None? || n.dashboardPort.value in {0, DefaultDashboardPort}
    ensures t.1 != 0
    ensures n.dashboardPort.Some? && n.dashboardPort.value != 0 ==> t.1 == n.dashboardPort.value
  {
    var port := if n.dashboardPort.Some? && n.dashboardPort.value != 0 then n.dashboardPort.value
                else DefaultDashboardPort;
    (n.address.GetOr(DefaultAddress), port)
  }

  // ---------------------------------------------------------------------
  // Updating one node
  // ---------------------------------------------------------------------

  /** The JSON body of the PATCH (`update_data`). The `satellites` list is
      not part of this model. */
  datatype UpdatePayload = UpdatePayload(
    status: string,
    version: Option<string>,
    usedSpace: int,
    availableSpace: int,
    bandwidthUsed: int,
    uptime: int,
    lastSeen: string,
    reputation: Reputation,
    auditScore: Option<real>,
    suspensionScore: Option<real>)

  /** The update built from a status document at time `now`. */
  function UpdateOf(d: StatusDoc, now: string): (u: UpdatePayload)
    ensures u.status == Label(SyncHealth(d))
    ensures u.usedSpace == UsedSpace(d) && u.availableSpace == AvailableSpace(d)
    ensures d.reputation.None? ==> u.reputation == Reputation(None, None)
                                   && u.auditScore.None? && u.suspensionScore.None?
    ensures d.reputation.Some? ==> u.reputation == d.reputation.value
                                   && u.auditScore == d.reputation.value.auditScore
                                   && u.suspensionScore == d.reputation.value.suspensionScore
    ensures u.lastSeen == now && u.version == d.version
    ensures d.bandwidth.None? || d.bandwidth.value.used.None? ==> u.bandwidthUsed == 0
    ensures d.bandwidth.Some? && d.bandwidth.value.used.Some? ==> u.bandwidthUsed == d.bandwidth.value.used.value
    ensures u.uptime == if d.uptime.Some? then d.uptime.value else 0
  {
    var rep := d.reputation.GetOr(Reputation(None, None));
    UpdatePayload(
      status := Label(SyncHealth(d)),
      version := d.version,
      usedSpace := UsedSpace(d),
      availableSpace := AvailableSpace(d),
      bandwidthUsed := if d.bandwidth.Some? then d.bandwidth.value.used.GetOr(0) else 0,
      uptime := d.uptime.GetOr(0),
      lastSeen := now,
      reputation := rep,
      auditScore := rep.auditScore,
      suspensionScore := rep.suspensionScore)
  }

  /** What one cycle is given: the listing reply and its `nodes`, each
      node's status document (`None` for a failed probe), the dashboard's
      reply to the PATCH for a registry id, and the clock. */
  datatype CycleInput = CycleInput(
    listing: Reply,
    listed: Option<seq<RemoteNode>>,
    probe: (string, int) -> Option<StatusDoc>,
    patch: string -> Reply,
    now: string)

  /** How one node's sync ended. */
  datatype NodeOutcome =
    | NotFetched     // the probe gave nothing or an empty document; no PATCH
    | NoRegistryId   // the listed node has no `id`; no PATCH
    | Patched(url: string, body: UpdatePayload, reply: Reply, success: bool)

  predicate Synced(o: NodeOutcome) {
    o.Patched? && o.success
  }

  /** `'unknown'[:8]` and `s[:8]` are fine; slicing `None`, a number or a
      boolean raises. */
  predicate SliceableId(v: Option<Scalar>) {
    v.None? || v.value.Str?
  }

  /** `_sync_node`, `_fetch_node_data` and `_update_node` for one node. A
      node whose PATCH was accepted still counts as failed when logging its
      `nodeId` raises. */
  function SyncNode(dashboardUrl: string, n: RemoteNode, input: CycleInput): NodeOutcome {
    var (host, port) := ProbeTarget(n);
    match input.probe(host, port)
    case None => NotFetched
    case Some(doc) =>
      if !IsNonEmpty(doc) then NotFetched
      else if n.id.None? then NoRegistryId
      else
        var reply := input.patch(n.id.value);
        Patched(dashboardUrl + "/storj/nodes/" + n.id.value, UpdateOf(doc, input.now), reply,
                PatchAccepted(reply) && SliceableId(n.nodeId))
  }

  /** A node is not updated when its dashboard gives nothing or an empty
      document; otherwise the update built from that document goes to the
      node's registry URL, and the node counts as synced exactly when the
      dashboard accepted it (and its `nodeId` can be logged). */
  lemma SyncNodeSpec(dashboardUrl: string, n: RemoteNode, input: CycleInput)
    ensures var o := SyncNode(dashboardUrl, n, input);
            var doc := input.probe(ProbeTarget(n).0, ProbeTarget(n).1);
            && (o == NotFetched <==> doc.None? || !IsNonEmpty(doc.value))
            && (o == NoRegistryId <==> doc.Some? && IsNonEmpty(doc.value) && n.id.None?)
            && (o.Patched? ==>
                  && n.id.Some?
                  && o.url == dashboardUrl + "/storj/nodes/" + n.id.value
                  && o.body == UpdateOf(doc.value, input.now)
                  && o.reply == input.patch(n.id.value))
            && (Synced(o) <==> o.Patched? && PatchAccepted(o.reply) && SliceableId(n.nodeId))
  {
  }

  /** A node whose `nodeId` is `null` is reported as failed even after the
      dashboard accepted its update. */
  lemma NullNodeIdCountsAsFailure(dashboardUrl: string, n: RemoteNode, input: CycleInput)
    requires n.nodeId == Some(Null)
    ensures !Synced(SyncNode(dashboardUrl, n, input))
  {
  }

  // ---------------------------------------------------------------------
  // Batches
  // ---------------------------------------------------------------------

  function Min(a: int, b: int): int {
    if a <= b then a else b
  }

  /** `[nodes[i:i + size] for i in range(0, len(nodes), size)]` for a
      positive size. */
  function Batches<T>(nodes: seq<T>, size: int): seq<seq<T>>
    requires size > 0
    decreases |nodes|
  {
    if nodes == [] then []
    else
      var k := Min(size, |nodes|);
      [nodes[..k]] + Batches(nodes[k..], size)
  }

  function Flatten<T>(ss: seq<seq<T>>): seq<T> {
    if ss == [] then [] else ss[0] + Flatten(ss[1..])
  }

  /** Concatenating the batches gives back the node list. */
  lemma {:induction false} BatchesFlatten<T>(nodes: seq<T>, size: int)
    requires size > 0
    ensures Flatten(Batches(nodes, size)) == nodes
    decreases |nodes|
  {
    if nodes != [] {
      var k := Min(size, |nodes|);
      var bs := Batches(nodes, size);
      assert bs == [nodes[..k]] + Batches(nodes[k..], size);
      assert bs[0] == nodes[..k] && bs[1..] == Batches(nodes[k..], size);
      BatchesFlatten(nodes[k..], size);
      assert Flatten(bs) == nodes[..k] + nodes[k..];
      assert nodes[..k] + nodes[k..] == nodes;
    }
  }

  /** Every batch but the last holds exactly `size` nodes; the last one is
      not empty and holds at most `size`. */
  lemma {:induction false} BatchSizes<T>(nodes: seq<T>, size: int)
    requires size > 0
    ensures var bs := Batches(nodes, size);
            && (forall k :: 0 <= k < |bs| - 1 ==> |bs[k]| == size)
            && (|bs| > 0 ==> 0 < |bs[|bs| - 1]| <= size)
    decreases |nodes|
  {
    if nodes != [] {
      var k := Min(size, |nodes|);
      var rest := Batches(nodes[k..], size);
      BatchSizes(nodes[k..], size);
      var bs := Batches(nodes, size);
      assert bs == [nodes[..k]] + rest;
      if rest != [] {
        assert |nodes[k..]| > 0;
        assert k == size;
      }
      forall j | 0 <= j < |bs| - 1
        ensures |bs[j]| == size
      {
        if j > 0 {
          assert bs[j] == rest[j - 1];
        }
      }
    }
  }

  /** There are just enough batches to hold every node. */
  lemma {:induction false} BatchBounds<T>(nodes: seq<T>, size: int)
    requires size > 0
    ensures var m := |Batches(nodes, size)|;
            (m - 1) * size < |nodes| <= m * size
    decreases |nodes|
  {
    if nodes != [] {
      var k := Min(size, |nodes|);
      BatchBounds(nodes[k..], size);
      var m, m' := |Batches(nodes, size)|, |Batches(nodes[k..], size)|;
      assert m == m' + 1;
      assert m * size == m' * size + size;
      assert (m - 1) * size == m' * size;
    }
  }

  /** There are ceil(n / size) batches. */
  lemma BatchCount<T>(nodes: seq<T>, size: int)
    requires size > 0
    ensures |Batches(nodes, size)| == (|nodes| + size - 1) / size
  {
    BatchBounds(nodes, size);
    CeilingDivision(|nodes|, size, |Batches(nodes, size)|);
  }

  lemma MulCancel(a: int, b: int, d: int)
    requires d > 0 && a * d < b * d
    ensures a < b
  {
    assert (b - a) * d == b * d - a * d;
  }

  /** The only m with (m - 1) * d < n <= m * d is (n + d - 1) / d. */
  lemma CeilingDivision(n: nat, d: int, m: int)
    requires d > 0 && (m - 1) * d < n <= m * d
    ensures m == (n + d - 1) / d
  {
    var q := (n + d - 1) / d;
    var r := (n + d - 1) % d;
    assert n + d - 1 == q * d + r && 0 <= r < d;
    assert (m - 1) * d == m * d - d;
    assert (q + 1) * d == q * d + d;
    assert (m + 1) * d == m * d + d;
    MulCancel(m, q + 1, d);
    MulCancel(q, m + 1, d);
  }

  // ---------------------------------------------------------------------
  // Batch and cycle reports
  // ---------------------------------------------------------------------

  /** The outcome of every node of a list, in order. */
  function Outcomes(dashboardUrl: string, nodes: seq<RemoteNode>, input: CycleInput): (os: seq<NodeOutcome>)
    ensures |os| == |nodes|
    ensures forall i :: 0 <= i < |nodes| ==> os[i] == SyncNode(dashboardUrl, nodes[i], input)
  {
    if nodes == [] then []
    else [SyncNode(dashboardUrl, nodes[0], input)] + Outcomes(dashboardUrl, nodes[1..], input)
  }

  /** The number of synced outcomes. */
  function SyncedCount(os: seq<NodeOutcome>): (n: nat)
    ensures n <= |os|
  {
    if os == [] then 0 else (if Synced(os[0]) then 1 else 0) + SyncedCount(os[1..])
  }

  /** What `_sync_batch` observes: the outcomes, the two counts and whether
      the warning was logged. */
  datatype BatchReport = BatchReport(outcomes: seq<NodeOutcome>, successes: nat, errors: nat, warned: bool)

  function BatchOf(dashboardUrl: string, batch: seq<RemoteNode>, input: CycleInput): (r: BatchReport)
    ensures r.outcomes == Outcomes(dashboardUrl, batch, input)
    ensures r.successes == SyncedCount(r.outcomes)
    ensures r.successes + r.errors == |batch|
    ensures r.warned <==> r.successes < |batch|
  {
    var os := Outcomes(dashboardUrl, batch, input);
    var s := SyncedCount(os);
    BatchReport(os, s, |batch| - s, |batch| - s > 0)
  }

  function BatchReports(dashboardUrl: string, batches: seq<seq<RemoteNode>>, input: CycleInput): (rs: seq<BatchReport>)
    ensures |rs| == |batches|
  {
    if batches == [] then []
    else [BatchOf(dashboardUrl, batches[0], input)] + BatchReports(dashboardUrl, batches[1..], input)
  }

  /** How one cycle ended: nothing listed, `range()` raised on a zero
      batch size, or the reports of the batches processed. */
  datatype CycleReport = NoNodes | CycleFailed | Completed(batches: seq<BatchReport>)

  /** `_sync_cycle`. A negative batch size makes `range()` empty. */
  function CycleOf(dashboardUrl: string, batchSize: int, input: CycleInput): CycleReport {
    var nodes := RegisteredNodes(input.listing, input.listed);
    if nodes == [] then NoNodes
    else if batchSize == 0 then CycleFailed
    else if batchSize < 0 then Completed([])
    else Completed(BatchReports(dashboardUrl, Batches(nodes, batchSize), input))
  }

  function AllOutcomes(rs: seq<BatchReport>): seq<NodeOutcome> {
    if rs == [] then [] else rs[0].outcomes + AllOutcomes(rs[1..])
  }

  lemma {:induction false} OutcomesAppend(dashboardUrl: string, xs: seq<RemoteNode>, ys: seq<RemoteNode>, input: CycleInput)
    ensures Outcomes(dashboardUrl, xs + ys, input) == Outcomes(dashboardUrl, xs, input) + Outcomes(dashboardUrl, ys, input)
  {
    assert |Outcomes(dashboardUrl, xs + ys, input)| == |xs| + |ys|;
  }

  /** The outcomes of one more node of a list. */
  lemma OutcomesSnoc(dashboardUrl: string, nodes: seq<RemoteNode>, i: nat, input: CycleInput)
    requires i < |nodes|
    ensures Outcomes(dashboardUrl, nodes[..i + 1], input)
            == Outcomes(dashboardUrl, nodes[..i], input) + [SyncNode(dashboardUrl, nodes[i], input)]
  {
    assert nodes[..i + 1] == nodes[..i] + [nodes[i]];
    OutcomesAppend(dashboardUrl, nodes[..i], [nodes[i]], input);
  }

  lemma {:induction false} AllOutcomesFlatten(dashboardUrl: string, batches: seq<seq<RemoteNode>>, input: CycleInput)
    ensures AllOutcomes(BatchReports(dashboardUrl, batches, input)) == Outcomes(dashboardUrl, Flatten(batches), input)
    decreases |batches|
  {
    if batches != [] {
      AllOutcomesFlatten(dashboardUrl, batches[1..], input);
      OutcomesAppend(dashboardUrl, batches[0], Flatten(batches[1..]), input);
    }
  }

  /** With a positive batch size, a cycle that found nodes syncs each of
      them exactly once, in listing order; with none listed it syncs none. */
  lemma EveryListedNodeSynced(dashboardUrl: string, batchSize: int, input: CycleInput)
    requires batchSize > 0
    ensures var nodes := RegisteredNodes(input.listing, input.listed);
            var r := CycleOf(dashboardUrl, batchSize, input);
            && (nodes == [] <==> r == NoNodes)
            && (nodes != [] ==> r.Completed? && AllOutcomes(r.batches) == Outcomes(dashboardUrl, nodes, input))
  {
    var nodes := RegisteredNodes(input.listing, input.listed);
    if nodes != [] {
      AllOutcomesFlatten(dashboardUrl, Batches(nodes, batchSize), input);
      BatchesFlatten(nodes, batchSize);
    }
  }

  // ---------------------------------------------------------------------
  // The daemon
  // ---------------------------------------------------------------------

  /** The HTTP session's life cycle: never opened, open, closed. */
  datatype SessionState = NoSession | Open | Closed

  class NodeSync {
    const apiToken: string
    const dashboardUrl: string
    const interval: int
    const batchSize: int
    var session: SessionState
    var running: bool

    /** `NodeSync(api_token, dashboard_url, interval, batch_size)`: the
        dashboard address loses its trailing slashes; the daemon starts
        stopped and without a session. */
    constructor (apiToken: string, dashboardUrl: string, interval: int, batchSize: int)
      ensures this.apiToken == apiToken && this.interval == interval && this.batchSize == batchSize
      ensures this.dashboardUrl == RStrip(dashboardUrl, '/')
      ensures session == NoSession && !running
    {
      this.apiToken := apiToken;
      this.dashboardUrl := RStrip(dashboardUrl, '/');
      this.interval := interval;
      this.batchSize := batchSize;
      session := NoSession;
      running := false;
    }

    /** `stop`: clears the flag and closes the session if there is one. */
    method Stop()
      modifies this
      ensures !running
      ensures session == (if old(session) == NoSession then NoSession else Closed)
    {
      running := false;
      if session != NoSession {
        session := Closed;
      }
    }

    /** `_sync_batch`: syncs the nodes of one batch in order and counts the
        ones whose result is exactly `True`. */
    method SyncBatch(batch: seq<RemoteNode>, input: CycleInput) returns (report: BatchReport)
      ensures report == BatchOf(dashboardUrl, batch, input)
    {
      var outcomes: seq<NodeOutcome> := [];
      var successes := 0;
      for i := 0 to |batch|
        invariant outcomes == Outcomes(dashboardUrl, batch[..i], input)
        invariant successes == SyncedCount(outcomes)
      {
        var o := SyncNode(dashboardUrl, batch[i], input);
        OutcomesSnoc(dashboardUrl, batch, i, input);
        SyncedCountAppend(outcomes, o);
        outcomes := outcomes + [o];
        if Synced(o) {
          successes := successes + 1;
        }
      }
      assert batch[..|batch|] == batch;
      var errors := |batch| - successes;
      report := BatchReport(outcomes, successes, errors, errors > 0);
    }

    /** The loop of `_sync_cycle`: the batches of `nodes`, one after the
        other. */
    method SyncBatches(nodes: seq<RemoteNode>, input: CycleInput) returns (reports: seq<BatchReport>)
      requires batchSize > 0
      ensures reports == BatchReports(dashboardUrl, Batches(nodes, batchSize), input)
    {
      reports := [];
      var i := 0;
      ghost var done: seq<seq<RemoteNode>> := [];
      assert nodes[i..] == nodes;
      while i < |nodes|
        invariant 0 <= i <= |nodes|
        invariant done + Batches(nodes[i..], batchSize) == Batches(nodes, batchSize)
        invariant reports == BatchReports(dashboardUrl, done, input)
        decreases |nodes| - i
      {
        var k := Min(batchSize, |nodes| - i);
        var batch := nodes[i..i + k];
        var r := SyncBatch(batch, input);
        BatchStep(nodes, i, batchSize, k);
        SnocAssoc(done, batch, Batches(nodes[i + k..], batchSize), Batches(nodes[i..], batchSize),
                  Batches(nodes, batchSize));
        BatchReportsSnoc(dashboardUrl, done, batch, input);
        assert reports + [r] == BatchReports(dashboardUrl, done + [batch], input);
        assert i + k <= |nodes|;
        reports := reports + [r];
        done := done + [batch];
        i := i + k;
      }
      assert nodes[i..] == [];
      assert done + [] == done;
    }

    /** `_sync_cycle`: lists the registered nodes, stops early when there
        are none, and otherwise processes the batches one after the other. */
    method SyncCycle(input: CycleInput) returns (report: CycleReport)
      ensures report == CycleOf(dashboardUrl, batchSize, input)
    {
      var nodes := RegisteredNodes(input.listing, input.listed);
      if nodes == [] {
        return NoNodes;
      }
      if batchSize == 0 {
        return CycleFailed;
      }
      if batchSize < 0 {
        // range(0, n, step) with a negative step is empty
        return Completed([]);
      }
      var reports := SyncBatches(nodes, input);
      return Completed(reports);
    }

    /** `start`: sets the flag, opens the session and runs cycles while the
        flag holds; `stop` is reached on the way out. `inputs(k)` is what
        the k-th cycle sees, and the daemon is told to stop during the sleep
        that follows cycle `stopAfter`. */
    method Start(inputs: nat -> CycleInput, stopAfter: nat) returns (reports: seq<CycleReport>)
      modifies this
      ensures !running && session == Closed
      ensures |reports| == stopAfter + 1
      ensures forall k :: 0 <= k < |reports| ==> reports[k] == CycleOf(dashboardUrl, batchSize, inputs(k))
    {
      running := true;
      session := Open;
      reports := [];
      var k: nat := 0;
      while running
        invariant running ==> k <= stopAfter && session == Open
        invariant !running ==> k == stopAfter + 1 && session == Closed
        invariant |reports| == k
        invariant forall j :: 0 <= j < k ==> reports[j] == CycleOf(dashboardUrl, batchSize, inputs(j))
        decreases if running then stopAfter + 1 - k else 0
      {
        var report := SyncCycle(inputs(k));
        reports := reports + [report];
        // asyncio.sleep(interval): the stop request arrives here
        if k == stopAfter {
          Stop();
        }
        k := k + 1;
      }
      Stop();
    }
  }

  /** The batch starting at offset `i` comes first, then the batches of
      the rest. */
  lemma BatchStep<T>(nodes: seq<T>, i: nat, size: int, k: int)
    requires size > 0 && i < |nodes| && k == Min(size, |nodes| - i)
    ensures Batches(nodes[i..], size) == [nodes[i..i + k]] + Batches(nodes[i + k..], size)
  {
    assert nodes[i..][..k] == nodes[i..i + k] && nodes[i..][k..] == nodes[i + k..];
  }

  /** Reporting one more batch appends its report. */
  lemma {:induction false} BatchReportsSnoc(dashboardUrl: string, done: seq<seq<RemoteNode>>, batch: seq<RemoteNode>,
                                            input: CycleInput)
    ensures BatchReports(dashboardUrl, done + [batch], input)
            == BatchReports(dashboardUrl, done, input) + [BatchOf(dashboardUrl, batch, input)]
    decreases |done|
  {
    if done == [] {
      assert done + [batch] == [batch];
    } else {
      assert (done + [batch])[1..] == done[1..] + [batch];
      BatchReportsSnoc(dashboardUrl, done[1..], batch, input);
    }
  }

  /** One step of a loop that moves the head of `whole` onto the end of
      `xs`: the split of `all` moves along with it. */
  lemma SnocAssoc<T>(xs: seq<T>, x: T, ys: seq<T>, whole: seq<T>, all: seq<T>)
    requires xs + whole == all && whole == [x] + ys
    ensures (xs + [x]) + ys == all
  {
    assert (xs + [x]) + ys == xs + ([x] + ys);
  }

  lemma {:induction false} SyncedCountAppend(os: seq<NodeOutcome>, o: NodeOutcome)
    ensures SyncedCount(os + [o]) == SyncedCount(os) + (if Synced(o) then 1 else 0)
    decreases |os|
  {
    if os == [] {
      assert os + [o] == [o];
    } else {
      assert (os + [o])[1..] == os[1..] + [o];
      SyncedCountAppend(os[1..], o);
    }
  }
}

=== FILE: text.dfy ===
/** The string handling the client relies on: `str.split`/`strings.Split` on
    one separator character, `strip`/`strings.TrimSpace`, prefix and
    substring tests, ASCII lower-casing, and decimal integer parsing
    (Python's `int()` and Go's `strconv.Atoi`) and formatting. */
module Text {
  import opened Wrappers

  // ---------------------------------------------------------------------
  // Whitespace and trimming
  // ---------------------------------------------------------------------

  /** The six ASCII whitespace characters. Both `str.strip()` and
      `strings.TrimSpace` remove these; Python also removes `\x1c`-`\x1f`,
      and both remove Unicode spaces such as U+0085 and U+00A0, which this
      model does not. */
  predicate IsSpace(c: char) {
    c == ' ' || c == '\t' || c == '\n' || c == '\r' || c == '\U{000B}' || c == '\U{000C}'
  }

  function TrimLeft(s: string): (r: string)
    ensures |r| <= |s| && r == s[|s| - |r|..]
    ensures r == [] || !IsSpace(r[0])
    ensures forall k :: 0 <= k < |s| - |r| ==> IsSpace(s[k])
  {
    if |s| > 0 && IsSpace(s[0]) then
      var r := TrimLeft(s[1..]);
      assert s[1..][|s| - 1 - |r|..] == s[|s| - |r|..];
      assert forall k :: 1 <= k < |s| ==> s[k] == s[1..][k - 1];
      r
    else s
  }

  function TrimRight(s: string): (r: string)
    ensures |r| <= |s| && r == s[..|r|]
    ensures r == [] || !IsSpace(r[|r| - 1])
    ensures forall k :: |r| <= k < |s| ==> IsSpace(s[k])
  {
    if |s| > 0 && IsSpace(s[|s| - 1]) then
      var r := TrimRight(s[..|s| - 1]);
      assert s[..|s| - 1][..|r|] == s[..|r|];
      assert forall k :: 0 <= k < |s| - 1 ==> s[k] == s[..|s| - 1][k];
      r
    else s
  }

  /** `s.strip()` / `strings.TrimSpace(s)`: the slice of `s` left once the
      leading and trailing whitespace is removed. */
  function Strip(s: string): (r: string)
    ensures r == [] || (!IsSpace(r[0]) && !IsSpace(r[|r| - 1]))
  {
    TrimRight(TrimLeft(s))
  }

  // ---------------------------------------------------------------------
  // Prefixes, substrings, case
  // ---------------------------------------------------------------------

  predicate StartsWith(s: string, prefix: string) {
    |prefix| <= |s| && s[..|prefix|] == prefix
  }

  predicate EndsWith(s: string, suffix: string) {
    |suffix| <= |s| && s[|s| - |suffix|..] == suffix
  }

  /** `sub in s` for strings. */
  predicate Contains(s: string, sub: string)
    decreases |s|
  {
    StartsWith(s, sub) || (|s| > 0 && Contains(s[1..], sub))
  }

  function LowerChar(c: char): char {
    if 'A' <= c <= 'Z' then (c as int + 32) as char else c
  }

  /** `s.lower()`, restricted to ASCII letters. */
  function Lower(s: string): (r: string)
    ensures |r| == |s| && forall i :: 0 <= i < |s| ==> r[i] == LowerChar(s[i])
  {
    seq(|s|, i requires 0 <= i < |s| => LowerChar(s[i]))
  }

  /** `s.lstrip(c)`: drops every leading occurrence of `c`. */
  function LStrip(s: string, c: char): (r: string)
    ensures |r| <= |s| && r == s[|s| - |r|..]
    ensures r == [] || r[0] != c
    ensures forall k :: 0 <= k < |s| - |r| ==> s[k] == c
  {
    if |s| > 0 && s[0] == c then LStrip(s[1..], c) else s
  }

  /** `s.rstrip(c)`: drops every trailing `c`. */
  function RStrip(s: string, c: char): (r: string)
    ensures |r| <= |s| && r == s[..|r|]
    ensures r == [] || r[|r| - 1] != c
    ensures forall k :: |r| <= k < |s| ==> s[k] == c
  {
    if |s| > 0 && s[|s| - 1] == c then RStrip(s[..|s| - 1], c) else s
  }

  // ---------------------------------------------------------------------
  // Splitting on one separator character
  // ---------------------------------------------------------------------

  function Count(s: string, c: char): (n: nat)
    ensures n == 0 <==> c !in s
  {
    if s == [] then 0 else (if s[0] == c then 1 else 0) + Count(s[1..], c)
  }

  /** `s.split(sep)` in Python and `strings.Split(s, sep)` in Go for a
      one-character separator: the pieces between separators, empty pieces
      included; the empty string gives one empty piece. */
  function Split(s: string, sep: char): (r: seq<string>)
    ensures |r| == Count(s, sep) + 1
    ensures forall i :: 0 <= i < |r| ==> sep !in r[i]
  {
    if s == [] then [""]
    else
      var rest := Split(s[1..], sep);
      if s[0] == sep then [""] + rest
      else [[s[0]] + rest[0]] + rest[1..]
  }

  /** `sep.join(pieces)`. */
  function Join(pieces: seq<string>, sep: char): string
    requires |pieces| >= 1
  {
    if |pieces| == 1 then pieces[0] else pieces[0] + [sep] + Join(pieces[1..], sep)
  }

  /** Joining the pieces back with the separator gives the original string. */
  lemma {:induction false} JoinSplit(s: string, sep: char)
    ensures Join(Split(s, sep), sep) == s
  {
    if s != [] {
      var rest := Split(s[1..], sep);
      JoinSplit(s[1..], sep);
      if s[0] == sep {
        assert Split(s, sep) == [""] + rest;
        assert ([""] + rest)[1..] == rest;
      } else {
        var r := Split(s, sep);
        assert r[0] == [s[0]] + rest[0];
        if |rest| > 1 {
          assert r[1..] == rest[1..];
          assert Join(rest, sep) == rest[0] + [sep] + Join(rest[1..], sep);
        }
      }
    }
  }

  lemma {:induction false} SplitWithoutSep(p: string, sep: char)
    requires sep !in p
    ensures Split(p, sep) == [p]
  {
    if p != [] {
      SplitWithoutSep(p[1..], sep);
      assert [p[0]] + p[1..] == p;
    }
  }

  lemma {:induction false} SplitAfterPiece(p: string, t: string, sep: char)
    requires sep !in p
    ensures Split(p + [sep] + t, sep) == [p] + Split(t, sep)
  {
    var s := p + [sep] + t;
    if p == [] {
      assert s[1..] == t;
    } else {
      assert s[1..] == p[1..] + [sep] + t;
      SplitAfterPiece(p[1..], t, sep);
      var rest := Split(s[1..], sep);
      assert rest == [p[1..]] + Split(t, sep);
      assert [s[0]] + rest[0] == p;
      assert Split(s, sep) == [[s[0]] + rest[0]] + rest[1..];
    }
  }

  /** Splitting a join of separator-free pieces gives the pieces back. */
  lemma {:induction false} SplitJoin(pieces: seq<string>, sep: char)
    requires |pieces| >= 1
    requires forall i :: 0 <= i < |pieces| ==> sep !in pieces[i]
    ensures Split(Join(pieces, sep), sep) == pieces
  {
    if |pieces| == 1 {
      SplitWithoutSep(pieces[0], sep);
    } else {
      SplitJoin(pieces[1..], sep);
      SplitAfterPiece(pieces[0], Join(pieces[1..], sep), sep);
    }
  }

  /** `s.split(sep)[-1]`: the text after the last separator (all of `s` when
      it has none). */
  function AfterLast(s: string, sep: char): (t: string)
    ensures sep !in t
    ensures |t| <= |s| && t == s[|s| - |t|..]
    ensures sep !in s ==> t == s
    ensures sep in s ==> |t| < |s| && s[|s| - |t| - 1] == sep
  {
    if s == [] then []
    else
      var n := |s| - 1;
      if s[n] == sep then []
      else
        var init := s[..n];
        var t := AfterLast(init, sep);
        assert s == init + [s[n]];
        assert sep in s <==> sep in init;
        assert t + [s[n]] == s[|s| - |t| - 1..];
        assert sep !in t + [s[n]];
        t + [s[n]]
  }

  /** `s.split(c, 1)[1]`: the text after the first `c` (only used where a
      `c` is known to be present; the empty string otherwise). */
  function AfterFirst(s: string, c: char): (r: string)
    ensures |r| <= |s| && r == s[|s| - |r|..]
    ensures c in s ==> |r| < |s| && s[|s| - |r| - 1] == c && c !in s[..|s| - |r| - 1]
  {
    if s == [] then []
    else if s[0] == c then s[1..]
    else AfterFirst(s[1..], c)
  }

  // ---------------------------------------------------------------------
  // Decimal integers
  // ---------------------------------------------------------------------

  predicate IsDigit(c: char) { '0' <= c <= '9' }

  /** One or more decimal digits. */
  predicate IsNumeral(s: string) {
    |s| > 0 && forall i :: 0 <= i < |s| ==> IsDigit(s[i])
  }

  function NumeralValue(s: string): nat
    requires forall i :: 0 <= i < |s| ==> IsDigit(s[i])
  {
    if s == [] then 0
    else NumeralValue(s[..|s| - 1]) * 10 + DigitValue(s[|s| - 1])
  }

  function DigitValue(c: char): nat
    requires IsDigit(c)
  {
    c as int - '0' as int
  }

  /** An optional sign followed by decimal digits, the common core of
      Python's `int(str)` and Go's `strconv.Atoi`; anything else is `None`
      (the caller's exception or error). */
  function ParseInt(s: string): Option<int> {
    if |s| > 0 && s[0] == '-' && IsNumeral(s[1..]) then Some(-(NumeralValue(s[1..]) as int))
    else if |s| > 0 && s[0] == '+' && IsNumeral(s[1..]) then Some(NumeralValue(s[1..]))
    else if IsNumeral(s) then Some(NumeralValue(s))
    else None
  }

  /** Python's `int(s)`: surrounding whitespace is allowed. */
  function PyInt(s: string): Option<int> {
    ParseInt(Strip(s))
  }

  const MinInt64: int := -0x8000_0000_0000_0000
  const MaxInt64: int := 0x7FFF_FFFF_FFFF_FFFF

  /** Go's `strconv.Atoi` on a 64-bit platform: no whitespace, and a value
      outside the range of `int` is an error. */
  function GoAtoi(s: string): (r: Option<int>)
    ensures r.Some? ==> MinInt64 <= r.value <= MaxInt64 && ParseInt(s) == r
    ensures ParseInt(s).Some? && MinInt64 <= ParseInt(s).value <= MaxInt64 ==> r == ParseInt(s)
  {
    match ParseInt(s)
    case Some(n) => if MinInt64 <= n <= MaxInt64 then Some(n) else None
    case None => None
  }

  function DigitChar(d: nat): (c: char)
    requires d < 10
    ensures IsDigit(c) && DigitValue(c) == d
  {
    ('0' as int + d) as char
  }

  /** The decimal digits of `n`, without leading zeros. */
  function ShowNat(n: nat): (s: string)
    ensures IsNumeral(s)
    ensures s[0] != '0' || n == 0
  {
    if n < 10 then [DigitChar(n)] else ShowNat(n / 10) + [DigitChar(n % 10)]
  }

  /** `str(n)` / the `{n}` of an f-string. */
  function ShowInt(n: int): string {
    if n < 0 then "-" + ShowNat(-n) else ShowNat(n)
  }

  lemma {:induction false} NumeralValueShow(n: nat)
    ensures NumeralValue(ShowNat(n)) == n
  {
    if n >= 10 {
      NumeralValueShow(n / 10);
      var s := ShowNat(n);
      assert s[..|s| - 1] == ShowNat(n / 10);
    }
  }

  /** Parsing a formatted integer gives it back. */
  lemma ParseShowInt(n: int)
    ensures ParseInt(ShowInt(n)) == Some(n)
    ensures PyInt(ShowInt(n)) == Some(n)
  {
    var s := ShowInt(n);
    if n < 0 {
      var digits := ShowNat(-n);
      NumeralValueShow(-n);
      assert s[1..] == digits;
      assert IsDigit(digits[|digits| - 1]) && s[|s| - 1] == digits[|digits| - 1];
    } else {
      NumeralValueShow(n);
      assert IsDigit(s[0]) && IsDigit(s[|s| - 1]);
    }
    StripNoEdgeSpace(s);
  }

  lemma StripNoEdgeSpace(s: string)
    requires s != [] && !IsSpace(s[0]) && !IsSpace(s[|s| - 1])
    ensures Strip(s) == s
  {
    assert TrimLeft(s) == s;
    assert TrimRight(s) == s;
  }
}

=== FILE: wrappers.dfy ===
/** Optional values, results with an error message, and a filter-map over
    sequences: the shapes Python's `None`, exceptions and list building take
    in this model. */
module Wrappers {

  datatype Option<+T> = None | Some(value: T) {
    function GetOr(default: T): T {
      match this
      case Some(v) => v
      case None => default
    }
  }

  /** An operation that either yields a value or raises (the message is the
      error text the program reports). */
  datatype Result<+T> = Ok(value: T) | Err(error: string)

  /** Keeps, in order, the images of the elements that `f` maps to `Some`:
      the loop `for x in xs: y = f(x); if y: out.append(y)`. */
  function FilterMap<A, B>(f: A -> Option<B>, xs: seq<A>): (r: seq<B>)
    ensures |r| <= |xs|
  {
    if xs == [] then []
    else
      var rest := FilterMap(f, xs[1..]);
      match f(xs[0])
      case Some(y) => [y] + rest
      case None => rest
  }

  /** Filtering a concatenation concatenates the filtered parts: the output
      keeps input order, and each element is handled on its own. */
  lemma {:induction false} FilterMapAppend<A, B>(f: A -> Option<B>, xs: seq<A>, ys: seq<A>)
    ensures FilterMap(f, xs + ys) == FilterMap(f, xs) + FilterMap(f, ys)
  {
    if xs == [] {
      assert xs + ys == ys;
    } else {
      assert (xs + ys)[1..] == xs[1..] + ys;
      FilterMapAppend(f, xs[1..], ys);
    }
  }

  /** Every element of the output is the image of some input element. */
  lemma {:induction false} FilterMapFrom<A, B>(f: A -> Option<B>, xs: seq<A>, k: nat)
    requires k < |FilterMap(f, xs)|
    ensures exists i :: 0 <= i < |xs| && f(xs[i]) == Some(FilterMap(f, xs)[k])
  {
    var rest := FilterMap(f, xs[1..]);
    match f(xs[0])
    case Some(y) =>
      if k > 0 {
        FilterMapFrom(f, xs[1..], k - 1);
        var i :| 0 <= i < |xs[1..]| && f(xs[1..][i]) == Some(rest[k - 1]);
        assert f(xs[i + 1]) == Some(FilterMap(f, xs)[k]);
      } else {
        assert f(xs[0]) == Some(FilterMap(f, xs)[k]);
      }
    case None =>
      FilterMapFrom(f, xs[1..], k);
      var i :| 0 <= i < |xs[1..]| && f(xs[1..][i]) == Some(rest[k]);
      assert f(xs[i + 1]) == Some(FilterMap(f, xs)[k]);
  }

  /** Every input element with an image contributes that image. */
  lemma {:induction false} FilterMapKeeps<A, B>(f: A -> Option<B>, xs: seq<A>, i: nat)
    requires i < |xs| && f(xs[i]).Some?
    ensures f(xs[i]).value in FilterMap(f, xs)
  {
    if i > 0 {
      FilterMapKeeps(f, xs[1..], i - 1);
    }
  }

  /** The position of the first element satisfying `p`, or the length of
      the sequence when there is none. */
  function FirstWhere<A>(p: A -> bool, xs: seq<A>): (i: nat)
    ensures i <= |xs|
    ensures forall j :: 0 <= j < i ==> !p(xs[j])
    ensures i < |xs| ==> p(xs[i])
  {
    if xs == [] || p(xs[0]) then 0
    else
      assert forall j :: 1 <= j < |xs| ==> xs[j] == xs[1..][j - 1];
      1 + FirstWhere(p, xs[1..])
  }

  /** `[f(x) for x in xs]`. */
  function Map<A, B>(f: A -> B, xs: seq<A>): (ys: seq<B>)
    ensures |ys| == |xs|
    ensures forall i :: 0 <= i < |xs| ==> ys[i] == f(xs[i])
  {
    if xs == [] then []
    else
      var init := xs[..|xs| - 1];
      assert forall i :: 0 <= i < |init| ==> init[i] == xs[i];
      Map(f, init) + [f(xs[|xs| - 1])]
  }
}
